=== FILE: README.md ===
# math-factory world simulation in Dafny

A model of the simulation core of math-factory, a grid-based factory game:

- **Deposits.** Finite deposits hold 1000 units. Infinite deposits hold the sentinel -1.
- **Miners.** A miner ticks against the deposit under it. On a deposit not flagged as occupied, it extracts one token every 120 ticks into a FIFO buffer of capacity 5. It emits tokens toward an adjacent cell.
- **Number classification.** A token's value is classified as basic, prime or composite.
- **Grid coordinates.** Cells are converted to and from continuous world coordinates.
- **The Core.** It accumulates absorbed values.
- **The world.** The items below are what the code sets up. As written, no miner ever extracts anything: placing a miner flags its deposit as occupied, and a miner on an occupied deposit does nothing. So in the running game no token is ever produced. The model proves this (`Game.PlacedMinerNeverMines`, `Game.OccupiedMinersIdle`) and records it under Findings; the tick protocol below is still modelled for miners that do hold tokens.
  - Occupancy grid and footprint placement.
  - The miner placement rule and its preview.
  - Deterministic, position-keyed deposit generation with distance bands.
  - Lazy chunk generation around the camera.
  - The per-tick protocol: tokens move from miner buffers to the floating list, then into the Core.

Each source type is an immutable datatype. Each source method is a pure function that returns the updated value. Go loops become recursive functions whose contracts carry the loop's meaning.

The modules follow the source files:

| module | file | models |
|---|---|---|
| `Entity` | `entity.dfy` | `GridPosition` and the grid/world conversions |
| `Numbers` | `numbers.dfy` | trial-division primality, classification, the token record |
| `Deposits` | `deposits.dfy` | `NumberDeposit` and its mining rules |
| `Miners` | `miners.dfy` | the miner state machine and its output buffer |
| `Cores` | `cores.dfy` | the Core accumulator and its 2 x 2 footprint |
| `Generation` | `generation.dfy` | deposit generation, the prime search, chunks as regions |
| `Game` | `game.dfy` | the world: placement, chunk bookkeeping, the tick |

`Wrappers` (`wrappers.dfy`) holds `Option`.

Modelling decisions:

- **Numeric types.**
  - Go `int` is Dafny `int`.
  - Go `float64` is `real`, so distances and coordinates are exact.
  - Go's `int(f)` truncates toward zero and is written out as `Entity.Trunc`.
  - Go's integer division is written out as `Game.GoDiv`.
- **Deposit references.** A miner's deposit pointer becomes the deposit's key in the world's deposit map. `None` stands for a nil pointer. Mining through the pointer becomes a lookup, then a write-back of the updated deposit.
- **Grid occupants.** A grid cell holds either the Core or the index of a miner in the miner list.
- **Core placement and collection.** The world uses the Core as a 2 x 2 entity at (0, 0), as the comment at `internal/game/world.go:63` says. `Cores.OccupiesPosition` is that footprint. The world's `AcceptNumber` has the meaning of `CollectNumber`.
- **Seeded randomness.** `rand.New(rand.NewSource(seed))` becomes `Generation.Rng`, a pair of arbitrary functions:
  - the first `Float64` for a seed;
  - the k-th `Intn(n)` for a seed.

  `ValidRng` only requires `Intn(n)` to lie in `[0, n)`. Deposit presence and value are therefore functions of the position alone.
- **Global randomness.** The infinite flag uses the global `rand.Float64()`, so it is not deterministic. Each generation call takes an arbitrary `draw: GridPosition -> real` for it.
- **Token motion.** Token motion (`Number.Update`) is a parameter `moved: nat -> Body`: token `i`'s body after its motion step. The distance tests of the tick are done exactly on that body.

## Model

| member | source | states |
|---|---|---|
| `Entity.ToWorldPos` | internal/entities/entity.go:15-17 | A cell's top-left corner in world coordinates, 32 units per cell. It has no contract of its own. `Entity.RoundTrip` and `Entity.FloorRoundTrip` state that both conversions back to the grid invert it. |
| `Entity.WorldPosToGrid` | internal/entities/entity.go:20-25 | World coordinates to a cell, by division and truncation toward zero. It has no contract of its own. `Entity.RoundTrip`, `Entity.NonNegativeConversionContainsPoint` and `Entity.TruncationMisplacesNegativeTile` state where it is right and where it is not. |
| `Entity.RoundTrip` | internal/entities/entity.go:15-25 | Converting a cell to world coordinates and back with `WorldPosToGrid` gives the same cell. |
| `Entity.NearOriginTruncatesToZero` | internal/entities/entity.go:20-25 | Every world coordinate strictly between -32 and 32 maps to grid 0 on that axis, because the conversion truncates toward zero. |
| `Entity.NonNegativeConversionContainsPoint` | internal/entities/entity.go:20-25 | For non-negative world coordinates, the cell found satisfies 32 g <= w < 32 (g + 1) on each axis. |
| `Entity.TruncationMisplacesNegativeTile` | internal/entities/entity.go:20-25 | The point (-16, -16) lies in cell (-1, -1) but is converted to cell (0, 0). |
| `Entity.FloorConversionContainsPoint` | internal/entities/entity.go:20-25 | The flooring conversion finds the containing cell for every world coordinate, negative ones included. |
| `Entity.FloorRoundTrip` | internal/entities/entity.go:15-17 | The flooring conversion is also a left inverse of `ToWorldPos`. |
| `Numbers.TrialDivision` | internal/entities/number.go:123-128 | The odd-divisor loop from 3 while i*i <= n answers exactly "n is prime", given that no number below i divides n. |
| `Numbers.IsPrime` | internal/entities/number.go:113-129 | The result holds iff n >= 2 and no d in [2, n) divides n. This covers n < 2, n = 2 and even n > 2. |
| `Numbers.DetermineNumberType` | internal/entities/number.go:103-111 | Basic iff value < 2. Prime iff the value is prime. Composite iff the value is >= 2 and not prime. |
| `Numbers.NewNumber` | internal/entities/number.go:33-43 | The token carries the value and the classification of that value, and starts at rest at (x, y). |
| `Deposits.NewNumberDeposit` | internal/entities/deposit.go:24-38 | A new deposit holds 1000 units if finite and -1 if infinite. It is unoccupied and mineable, and its type is the value's classification. |
| `Deposits.CanBeMined` | internal/entities/deposit.go:114-116 | The mineability test: not occupied, and infinite or with units left. It has no contract of its own. `Deposits.Mine` states that a call succeeds exactly when it holds, and `Deposits.SetMined` that setting the flag falsifies it. |
| `Deposits.SetMined` | internal/entities/deposit.go:114-120 | Only the occupied flag changes. Once the flag is set, the deposit is not mineable and `Mine` fails, leaving it unchanged. |
| `Deposits.Mine` | internal/entities/deposit.go:122-132 | An unmineable deposit gives (0, false) and is unchanged. Otherwise the call gives the deposit's value; a finite deposit loses exactly one unit and an infinite one keeps -1. Nothing but the unit count changes. |
| `Deposits.FiniteDepositYield` | internal/entities/deposit.go:24-132 | k calls to `Mine` on a finite deposit succeed min(k, units) times, or 0 times if it is occupied. Units never drop below 0, and at most 1000 calls succeed. |
| `Deposits.InfiniteDepositNeverRunsOut` | internal/entities/deposit.go:122-132 | An unoccupied infinite deposit succeeds on every call and is never changed. |
| `Miners.MineOnce` | internal/entities/miner.go:118-124 | One extraction writes back the deposit after `Mine`. It appends exactly one token iff the deposit is mineable, keeps the existing buffer as a prefix, and changes nothing else. That token carries the deposit's value and its classification, is at rest, and sits at the centre of the miner's cell. |
| `Miners.NewMiner` | internal/entities/miner.go:29-39 | A new miner has timer 0, interval 120, capacity 5, an empty buffer, and the given position, deposit and direction. |
| `Miners.Update` | internal/entities/miner.go:41-55 | No-op with a nil or unmineable deposit or a full buffer. Keeps 0 <= timer < interval and the buffer within capacity. Appends at most one token, and exactly one iff the timer reaches the interval and the deposit is mineable. That token carries the deposit's value and is at rest. The deposit changes only through that one `Mine`. |
| `Miners.GetOutputPosition` | internal/entities/miner.go:126-139 | The output cell is orthogonally adjacent on the miner's side (up is y - 1, right is x + 1, down is y + 1, left is x - 1), so it is never the miner's own cell. |
| `Miners.TryOutputNumber` | internal/entities/miner.go:141-148 | Returns and removes the head of the buffer. On an empty buffer it returns nothing and changes nothing. |
| `Miners.HasOutputReady` | internal/entities/miner.go:150-152 | Ready exactly when `TryOutputNumber` would return a token. |
| `Miners.DrainIsFifo` | internal/entities/miner.go:141-148 | Repeated `TryOutputNumber` calls return the buffered tokens in buffer order and leave the rest of the buffer. |
| `Miners.QuietTicks` | internal/entities/miner.go:41-55 | While the interval has not elapsed, ticks on a mineable deposit only advance the timer. |
| `Miners.FirstOutputAfterInterval` | internal/entities/miner.go:29-124 | A new miner on a mineable deposit holds exactly one token after 120 ticks. The token carries the deposit's value, the timer is back at 0, and the deposit was mined once. |
| `Cores.NewCore` | internal/entities/core.go:18-30 | A new Core stores nothing, is 64 x 64 (two tiles a side), and has collection range 80. |
| `Cores.Update` | internal/entities/core.go:32 | The Core's tick changes nothing. |
| `Cores.CollectNumber` | internal/entities/core.go:71-74 | Appends exactly the token's value after the unchanged stored prefix, and the token itself after the unchanged list of collected tokens. Keeps the two in step. Changes nothing else. |
| `Cores.GetStoredCount` | internal/entities/core.go:76-78 | The stored count is the number of tokens collected. |
| `Cores.CollectAllAppends` | internal/entities/core.go:71-78 | Collecting a sequence of tokens appends their values, in order, to the stored values. |
| `Generation.GeneratePrimeInRange` | internal/game/world.go:419-439 | The result is always prime. It is 2 when min > max or min < 2, or when [min, max] holds no prime. Otherwise it lies in [min, max]. When one of the 100 random probes is prime, the result is the first such probe. When none is, it is the smallest prime >= min. |
| `Generation.LinearScan` | internal/game/world.go:431-436 | The fallback scan returns the first prime at or after the candidate and within max, or nothing if there is none. |
| `Generation.RandomSearch` | internal/game/world.go:424-429 | Finds nothing iff none of the remaining probes (up to the 100th) is prime. Otherwise returns the first prime probe, which lies in [min, max]. |
| `Generation.GenerateNumberForPosition` | internal/game/world.go:323-349 | A value in [1, 5] when x²+y² < 9, in [1, 20] when < 64, in [5, 100] when < 225, in [20, 500] when < 625. Beyond that, a prime in [50, int(distance*50)]. |
| `Generation.ShouldGenerateDeposit` | internal/game/world.go:307-320 | The presence test: never inside x, y in [-1, 2], otherwise the position's seeded draw below 0.15. It has no contract of its own. `Generation.GenerateArea` states, through `Extends`, that exactly the cells passing it get a deposit. |
| `Generation.ShouldBeInfinite` | internal/game/world.go:352-359 | Infinite iff the draw is below 0.15 for a prime value, or below 0.05 otherwise. |
| `Generation.ISqrt` | internal/game/world.go:325 | The integer square root brackets its argument, giving `int(math.Sqrt(d) * 50)` as `ISqrt(2500 d)`. |
| `Generation.GenerateArea` | internal/game/world.go:282-304 | Keeps every existing deposit unchanged. Adds one deposit on exactly the eligible empty cells of the rectangle, never on a Core cell or inside x, y in [-1, 2], and nothing elsewhere. |
| `Generation.GenerateCell` | internal/game/world.go:286-302 | One loop iteration: skip a cell with a deposit or a Core cell, otherwise add the cell's deposit when the seeded draw says so. |
| `Generation.ExtendsUnique` | internal/game/world.go:282-304 | Generation is deterministic: two results of extending one map over the same cells are equal. |
| `Generation.GenerateAreaIdempotent` | internal/game/world.go:282-304 | Generating the same rectangle twice gives the same deposits as once, whatever the infinite-flag draws. |
| `Generation.GenerateAreasCommute` | internal/game/world.go:282-304 | Two rectangles generated in either order, each call with its own infinite-flag draws, give deposits on the same cells with the same positions and values. Old deposits are kept, and the new ones are exactly those of generating over the union. Only the infinite flag of a new deposit can differ. |
| `Generation.ChunkRectIsChunk` | internal/game/world.go:379-383 | The tiles [16 cx, 16 cx + 16) x [16 cy, 16 cy + 16) are exactly the cells of chunk (cx, cy). |
| `Game.PlaceEntity` | internal/game/world.go:405-416 | Maps every cell of the sizeX x sizeY footprint at the anchor to the entity. Keeps every other key and adds no other key. |
| `Game.NewWorld` | internal/game/world.go:52-72 | The new world keeps the invariant. It has no miners and no tokens. The Core is a fresh one at the origin that stored nothing, and the grid is exactly its four cells. The miner is the selected building, build mode is off, no chunk is marked, and the area [-20, 20) x [-20, 20) is generated. |
| `Game.TryPlaceMiner` | internal/game/world.go:172-191 | Changes nothing on an occupied cell or one without a mineable deposit. Otherwise it marks the deposit occupied, appends one miner facing right bound to it, and maps exactly that cell to the new miner. Deposit keys and everything else stay the same. |
| `Game.IsPositionOccupied` | internal/game/world.go:386-389 | A cell is occupied iff it is in the grid map or in the Core's footprint. It has no contract of its own. `Game.TryPlaceMiner` states that placement on an occupied cell is a no-op. |
| `Game.HasDepositAt` | internal/game/world.go:400-403 | A mineable deposit is keyed at the cell. It has no contract of its own. `Game.TryPlaceMiner` states that placement without one is a no-op. |
| `Game.CanPlaceAt` | internal/game/world.go:391-398 | The placement preview: a free cell, plus a mineable deposit when miners are selected. It has no contract of its own. `Game.CanPlaceAtPredictsPlacement` states that, with miners selected, it is exactly the condition for placement to succeed. |
| `Game.TryPlaceBuilding` | internal/game/world.go:164-169 | Only a selected miner places anything. |
| `Game.CanPlaceAtPredictsPlacement` | internal/game/world.go:391-403 | With miners selected, the preview is valid iff placement would change the world. |
| `Game.TryPlaceMinerKeepsInvariant` | internal/game/world.go:172-191 | Placement preserves the world invariant. |
| `Game.PlacedMinerNeverMines` | internal/game/world.go:185-186 | After a placement the new miner's deposit is occupied, so its tick takes the early return and changes neither it nor the deposit. |
| `Game.TryPlaceMinerUnflagged` | internal/game/world.go:172-191 | The corrected placement: the same validation and grid and miner updates as `TryPlaceMiner`, with the deposit left unflagged. |
| `Game.UnflaggedPlacementMines` | internal/game/world.go:184-190 | After the corrected placement, the new miner holds one token carrying its deposit's value after 120 ticks. A second placement on the cell is still refused. |
| `Game.GenerateChunk` | internal/game/world.go:379-383 | Generates exactly the cells of the chunk and changes nothing else in the world. |
| `Game.VisitChunks` | internal/game/world.go:366-375 | Marks every visited chunk. Generates each unmarked one once, and never a marked one. Changes nothing else. |
| `Game.GoDiv` | internal/game/world.go:363-364 | Integer division truncates toward zero. |
| `Game.Neighbourhood` | internal/game/world.go:366-368 | The loop visits exactly the nine chunks around the centre. |
| `Game.GenerateAroundCamera` | internal/game/world.go:362-376 | All nine chunks around the camera chunk end up marked, and no other chunk is newly marked. Exactly the unmarked ones among the nine are generated, each once. The deposits grow exactly over the generated chunks. |
| `Game.GenerateChunkKeepsInvariant` | internal/game/world.go:379-383 | Generating a chunk preserves the world invariant. |
| `Game.GenerateAroundCameraKeepsInvariant` | internal/game/world.go:362-376 | The per-frame generation around the camera preserves the world invariant, so every world reachable by placement, generation and ticks keeps it. |
| `Game.CameraOwnChunkGenerated` | internal/game/world.go:362-376 | The chunk that actually holds the camera is always among the nine generated, although the camera chunk is found by truncation. |
| `Game.UpdateMiners` | internal/game/world.go:75-79 | Ticking every miner keeps the deposit keys. Each miner changes only its timer and buffer, gains at most one token at the end of its buffer, and stays valid. `Game.UpdateMinersTicksEach` and `Game.UpdateMinersWritesBack` state what each miner and deposit becomes. |
| `Game.UpdateMinersTicksEach` | internal/game/world.go:75-79 | When no two miners share a deposit, miner i after the tick is exactly `Miners.Update` of miner i against its deposit as it stood before the tick. So the loop's order does not matter. |
| `Game.UpdateMinersWritesBack` | internal/game/world.go:75-79 | When no two miners share a deposit, each miner's deposit after the tick is the one its own `Miners.Update` returned, and every deposit no miner is bound to is unchanged. |
| `Game.InvariantGivesDistinctDeposits` | internal/game/world.go:172-191 | In every world that keeps the invariant, no two miners share a deposit, because each is bound to the deposit under its own grid cell. |
| `Game.OccupiedMinersIdle` | internal/game/world.go:75-79 | When every miner's deposit is occupied, as for every placed miner, the miners' tick changes nothing. |
| `Game.EmitOutputs` | internal/game/world.go:84-99 | Each miner with a ready token loses exactly its oldest token, so at most one per miner. Existing floating tokens stay in front, and floating plus buffered tokens are conserved. |
| `Game.EmitOutputsHandsOffHeads` | internal/game/world.go:84-99 | The floating list after the handoff is the old list followed by the head token of each non-empty buffer, in miner order, each placed at the centre of its miner's output cell. |
| `Game.EmitOutputsCarriesHeads` | internal/game/world.go:84-99 | The tokens appended to the floating list carry exactly the head values of the non-empty buffers, in miner order. |
| `Game.EmitOne` | internal/game/world.go:86-97 | A miner with a token appends exactly its head token to the floating list, moved to the centre of its output cell, and keeps the rest of its buffer. With an empty buffer nothing changes. |
| `Game.Absorb` | internal/game/world.go:101-122 | Each token that ends within collection distance of the Core is removed and its value appended to the Core. Floating plus stored tokens are conserved, no remaining token is within collection distance, and the Core's history stays consistent. |
| `Game.AbsorbKeeps` | internal/game/world.go:101-122 | The tokens left afloat are exactly those outside the collection radius, after their motion step, in their original order (`Kept`). |
| `Game.Settle` | internal/game/world.go:100-115 | A token's motion step followed by `MoveTo` toward the Core when inside the attraction radius. It keeps the token's value and type and takes the position the motion step produced. `Game.AbsorbKeeps` states that the tokens left afloat are exactly the settled ones. |
| `Game.AbsorbStoresTokens` | internal/game/world.go:116-118 | The Core's token list gains exactly the absorbed tokens, after their motion step, in the order the reverse loop visits them. Their values are exactly `Taken`. |
| `Game.AbsorbTakes` | internal/game/world.go:101-122 | The values appended to the Core are exactly those of the tokens inside the collection radius, in the order the reverse loop visits them (`Taken`). |
| `Game.AbsorbAccountsForValues` | internal/game/world.go:101-122 | As multisets, the values before the pass are the values still floating plus the values newly stored. |
| `Game.UpdateAccountsForValues` | internal/game/world.go:74-123 | Over a tick, every token that leaves the floating list has its value appended to the Core exactly once. As multisets, the floating values plus the buffer heads handed off equal the values still floating plus the values newly stored. |
| `Game.UpdateKeepsInvariant` | internal/game/world.go:74-123 | A tick preserves the world invariant. |
| `Game.UpdateConservesTokens` | internal/game/world.go:74-123 | A tick conserves floating + stored + buffered tokens, moves at most one token per miner out of its buffer, and leaves the deposits unchanged. |
| `Game.Update` | internal/game/world.go:74-123 | A tick changes neither the grid nor the chunk marks nor the build state. It keeps the miner count and only appends to the Core's stored values. |

Proof helpers have no row. They split the larger proofs into steps, for example:
- `Game.UpdateUnfoldsIdle`: under the invariant the miners' step changes nothing, so a tick is emission followed by absorption;
- `Game.InvariantOnlyNeedsLayout`: the invariant carries over to a world with the same grid and deposits, miners that differ only by shorter buffers, and a consistent Core;
- `Game.AbsorbedCase`, `Game.KeptCase` and the `…Step` lemmas are the inductive steps of the accounting lemmas.

## Left out

- Rendering is left out: every `Draw` method, `drawOutputIndicator`, colours, fonts and the build preview. It has no effect on the simulation.
- The camera (`internal/game/camera.go`), the input manager, the game loop and `main.go` are left out. They are platform I/O. Camera coordinates enter `Game.GenerateAroundCamera` as plain reals.
- `HandleInput` is left out except for the placement it triggers (`Game.TryPlaceBuilding`), because it only translates keys and mouse positions.
- Token motion is left out: velocity, the 0.95 damping and `MoveTo`'s normalisation by a square root. The position after motion is the parameter `moved`. `MoveTo` is modelled only as setting the moving flag.
- `Core.CanCollect` is left out. The tick never calls it and it needs a floating-point square root.
- `math/rand` is left out. Its generator is an arbitrary function of the seed.
- 64-bit integer overflow is left out: all integers are unbounded here. The first wrap-arounds would be `x*x + y*y` in `generateNumberForPosition` (`internal/game/world.go:325`), from coordinates of about 2·10^9, and `i*i` in `isPrime` (`internal/entities/number.go:123`), from values of about 9·10^18. The seed `x*1000000 + y*1000 + 12345` wraps from coordinates of about 9·10^12.
- `Generation.GenerateNumberForPosition` is stated with exact arithmetic. The outer band's bound is `int(math.Sqrt(d) * 50)`, modelled as `ISqrt(2500 d)`, which can differ from the floating-point product by one where rounding bites.
- The Core's `Update` runs once per Core cell in the grid loop and once more directly. It is a no-op, so the model runs it once.
- The grid loop ticks each miner through the grid map, in Go's map order. The model ticks the miner list in order. The order does not matter: `Game.InvariantGivesDistinctDeposits` shows that no two miners share a deposit, and `Game.UpdateMinersTicksEach` shows that each miner then depends only on its own deposit.
- `BuildingConveyor` and `BuildingProcessor` have no behaviour. `PreviewPosition` and `GetStats` only feed the display.
- `Miners.GetOutputPosition` has no counterpart for the source's `default:` case. A direction outside the four constants cannot be built by the source.
- `Deposit.Update`, `Deposit.GetGridPosition` and `GetSize` are trivial accessors and are left out. `Miners.GetSize` is kept, because placement uses it.
- `WorldPosToGrid` truncates, so it does not return the containing cell for negative coordinates. The model follows the code, and `Entity.WorldPosToGridFloor` is the corrected conversion (see Findings).
- The source calls `OccupiesPosition`, `AcceptNumber` and `GetGridPosition` on the Core, but `internal/entities/core.go` defines none of them. The model supplies the 2 x 2 footprint at the origin and uses `CollectNumber` for `AcceptNumber`.

## Findings

| source | as written | input that shows it | evidently intended | confidence | as-written member | corrected member |
|---|---|---|---|---|---|---|
| internal/entities/entity.go:20-25 | `int(worldX / TileSize)` truncates toward zero | world point (-16, -16) converts to cell (0, 0) | the cell containing the point, (-1, -1), i.e. floor division | high; not executed | `Entity.TruncationMisplacesNegativeTile` | `Entity.FloorConversionContainsPoint` |
| internal/game/world.go:185-186 | `tryPlaceMiner` calls `deposit.SetMined(true)`, and a miner does nothing on a deposit that is not mineable | any placed miner: its deposit is flagged, so every tick returns early and no token is ever produced | the grid entry alone keeps other miners off the cell, and the placed miner extracts every 120 ticks | high; not executed | `Game.PlacedMinerNeverMines` | `Game.UnflaggedPlacementMines` |

=== FILE: cores.dfy ===
/**
 * The Core: the single sink that accumulates absorbed token values
 * (internal/entities/core.go), together with the 2x2 footprint the world
 * gives it at the origin (internal/game/world.go).
 */
module Cores {
  import opened Entity
  import opened Numbers

  /** Grid cells covered by the Core along each axis (64 world units). */
  const CoreCells: int := 2
  /** The Core's anchor cell in the world. */
  const CoreAnchor: GridPosition := GridPosition(0, 0)

  /** The Core covers the cells (0,0), (1,0), (0,1) and (1,1). */
  predicate OccupiesPosition(p: GridPosition)
  {
    CoreAnchor.x <= p.x < CoreAnchor.x + CoreCells && CoreAnchor.y <= p.y < CoreAnchor.y + CoreCells
  }

  datatype Core = Core(
    x: real, y: real, width: real, height: real,
    storedNumbers: seq<int>,
    collectionRange: real,
    numbers: seq<Number>)

  /** The stored values are exactly the values of the absorbed tokens, in order. */
  predicate Consistent(c: Core)
  {
    && |c.numbers| == |c.storedNumbers|
    && forall i :: 0 <= i < |c.numbers| ==> c.numbers[i].value == c.storedNumbers[i]
  }

  function NewCore(x: real, y: real): (c: Core)
    ensures Consistent(c) && |c.storedNumbers| == 0
    ensures c.x == x && c.y == y && c.width == 64.0 && c.height == 64.0
    ensures c.width == (CoreCells * TileSize) as real
    ensures c.collectionRange == 80.0
  {
    Core(x, y, 64.0, 64.0, [], 80.0, [])
  }

  /** The Core has no behaviour of its own per tick. */
  function Update(c: Core): (r: Core)
    ensures r == c
  {
    c
  }

  /** Appends the token's value to the stored history (the world's AcceptNumber). */
  function CollectNumber(c: Core, n: Number): (r: Core)
    ensures |r.storedNumbers| == |c.storedNumbers| + 1
    ensures r.storedNumbers[..|c.storedNumbers|] == c.storedNumbers
    ensures r.storedNumbers[|c.storedNumbers|] == n.value
    ensures r.numbers == c.numbers + [n]
    ensures Consistent(c) ==> Consistent(r)
    ensures r.(storedNumbers := c.storedNumbers, numbers := c.numbers) == c
  {
    c.(storedNumbers := c.storedNumbers + [n.value], numbers := c.numbers + [n])
  }

  /** Number of values the Core has absorbed. */
  function GetStoredCount(c: Core): (count: nat)
    ensures Consistent(c) ==> count == |c.numbers|
  {
    |c.storedNumbers|
  }

  function Values(ns: seq<Number>): (vs: seq<int>)
    ensures |vs| == |ns|
    ensures forall i :: 0 <= i < |ns| ==> vs[i] == ns[i].value
  {
    if |ns| == 0 then [] else Values(ns[..|ns| - 1]) + [ns[|ns| - 1].value]
  }

  /** The values of a concatenation are the concatenated values. */
  lemma ValuesAppend(a: seq<Number>, b: seq<Number>)
    ensures Values(a + b) == Values(a) + Values(b)
  {
    assert |Values(a + b)| == |Values(a) + Values(b)|;
    forall i | 0 <= i < |a + b|
      ensures Values(a + b)[i] == (Values(a) + Values(b))[i]
    {
    }
  }

  /** Collecting tokens one after another. */
  function CollectAll(c: Core, ns: seq<Number>): Core
    decreases |ns|
  {
    if |ns| == 0 then c else CollectNumber(CollectAll(c, ns[..|ns| - 1]), ns[|ns| - 1])
  }

  /**
   * The stored history only grows: collecting a run of tokens leaves the old
   * history as a prefix and appends exactly their values, in order.
   */
  lemma {:induction false} CollectAllAppends(c: Core, ns: seq<Number>)
    ensures CollectAll(c, ns).storedNumbers == c.storedNumbers + Values(ns)
    ensures Consistent(c) ==> Consistent(CollectAll(c, ns))
    decreases |ns|
  {
    if |ns| > 0 {
      CollectAllAppends(c, ns[..|ns| - 1]);
      assert Values(ns) == Values(ns[..|ns| - 1]) + [ns[|ns| - 1].value];
    }
  }
}

=== FILE: deposits.dfy ===
/**
 * Number deposits: finite or infinite resource cells that miners draw from
 * (internal/entities/deposit.go).
 */
module Deposits {
  import opened Entity
  import opened Numbers

  /** Units in a freshly generated finite deposit. */
  const FiniteOre: int := 1000
  /** Sentinel stored in `remainingOre` of an infinite deposit. */
  const InfiniteOre: int := -1

  datatype NumberDeposit = NumberDeposit(
    position: GridPosition,
    numberValue: int,
    isInfinite: bool,
    remainingOre: int,
    depositType: NumberType,
    isMined: bool)

  /**
   * The shape every deposit keeps: infinite ones hold the sentinel, finite ones
   * hold between 0 and 1000 units, and the type matches the value.
   */
  predicate WellFormed(d: NumberDeposit)
  {
    && (d.isInfinite ==> d.remainingOre == InfiniteOre)
    && (!d.isInfinite ==> 0 <= d.remainingOre <= FiniteOre)
    && d.depositType == DetermineNumberType(d.numberValue)
  }

  function NewNumberDeposit(gridX: int, gridY: int, value: int, infinite: bool): (d: NumberDeposit)
    ensures WellFormed(d) && CanBeMined(d)
    ensures d.position == GridPosition(gridX, gridY) && d.numberValue == value
    ensures d.isInfinite == infinite && !d.isMined
    ensures !infinite ==> d.remainingOre == FiniteOre
    ensures infinite ==> d.remainingOre == InfiniteOre
    ensures d.depositType == DetermineNumberType(value)
  {
    var remaining := if infinite then InfiniteOre else FiniteOre;
    NumberDeposit(GridPosition(gridX, gridY), value, infinite, remaining,
                  DetermineNumberType(value), false)
  }

  predicate CanBeMined(d: NumberDeposit)
  {
    !d.isMined && (d.isInfinite || d.remainingOre > 0)
  }

  /** Marks the deposit as occupied (or free); a deposit marked occupied is never mineable. */
  function SetMined(d: NumberDeposit, mined: bool): (r: NumberDeposit)
    ensures r.isMined == mined
    ensures mined ==> !CanBeMined(r) && !Mine(r).ok && Mine(r).deposit == r
    ensures r.(isMined := d.isMined) == d
    ensures WellFormed(d) ==> WellFormed(r)
  {
    d.(isMined := mined)
  }

  datatype MineOutcome = MineOutcome(deposit: NumberDeposit, value: int, ok: bool)

  /** One extraction: a finite deposit loses one unit, an infinite one keeps its sentinel. */
  function Mine(d: NumberDeposit): (r: MineOutcome)
    ensures !CanBeMined(d) ==> r == MineOutcome(d, 0, false)
    ensures CanBeMined(d) ==> r.ok && r.value == d.numberValue
    ensures CanBeMined(d) && !d.isInfinite ==> r.deposit.remainingOre == d.remainingOre - 1
    ensures d.isInfinite ==> r.deposit.remainingOre == d.remainingOre
    ensures r.deposit.(remainingOre := d.remainingOre) == d
    ensures WellFormed(d) ==> WellFormed(r.deposit)
  {
    if !CanBeMined(d) then
      MineOutcome(d, 0, false)
    else if !d.isInfinite then
      MineOutcome(d.(remainingOre := d.remainingOre - 1), d.numberValue, true)
    else
      MineOutcome(d, d.numberValue, true)
  }

  datatype Mined = Mined(deposit: NumberDeposit, successes: nat)

  /** `k` consecutive calls to Mine, counting the successful ones. */
  function MineRepeatedly(d: NumberDeposit, k: nat): Mined
    decreases k
  {
    if k == 0 then Mined(d, 0)
    else
      var o := Mine(d);
      var rest := MineRepeatedly(o.deposit, k - 1);
      Mined(rest.deposit, rest.successes + (if o.ok then 1 else 0))
  }

  function Min(a: int, b: int): int
  {
    if a <= b then a else b
  }

  /**
   * A finite deposit yields exactly as many units as it holds (at most 1000)
   * and no more; an occupied one yields none.
   */
  lemma {:induction false} FiniteDepositYield(d: NumberDeposit, k: nat)
    requires WellFormed(d) && !d.isInfinite
    ensures var m := MineRepeatedly(d, k);
      && m.successes == (if d.isMined then 0 else Min(k, d.remainingOre))
      && m.deposit.remainingOre == d.remainingOre - m.successes
      && m.successes <= FiniteOre
      && WellFormed(m.deposit)
    decreases k
  {
    if k > 0 {
      FiniteDepositYield(Mine(d).deposit, k - 1);
    }
  }

  /** An unoccupied infinite deposit succeeds on every call and keeps its sentinel. */
  lemma {:induction false} InfiniteDepositNeverRunsOut(d: NumberDeposit, k: nat)
    requires WellFormed(d) && d.isInfinite && !d.isMined
    ensures var m := MineRepeatedly(d, k);
      && m.successes == k
      && m.deposit == d
      && m.deposit.remainingOre == InfiniteOre
      && CanBeMined(m.deposit)
    decreases k
  {
    if k > 0 {
      InfiniteDepositNeverRunsOut(Mine(d).deposit, k - 1);
    }
  }
}

=== FILE: entity.dfy ===
/**
 * Grid positions and the conversion between grid cells and continuous
 * world coordinates (internal/entities/entity.go).
 */
module Entity {

  /** Side of one grid cell in world units. */
  const TileSize: int := 32

  datatype GridPosition = GridPosition(x: int, y: int)

  /** Go's `int(f)` conversion: truncation toward zero. */
  function Trunc(f: real): (i: int)
    ensures 0.0 <= f ==> i as real <= f < i as real + 1.0
    ensures f < 0.0 ==> i as real - 1.0 < f <= i as real
  {
    if 0.0 <= f then f.Floor else -((-f).Floor)
  }

  /** World coordinates of the top-left corner of a grid cell. */
  function ToWorldPos(p: GridPosition): (real, real)
  {
    ((p.x * TileSize) as real, (p.y * TileSize) as real)
  }

  /** The source's conversion: divide by the tile size, then truncate toward zero. */
  function WorldPosToGrid(worldX: real, worldY: real): GridPosition
  {
    GridPosition(Trunc(worldX / TileSize as real), Trunc(worldY / TileSize as real))
  }

  /** The cell whose square [32g, 32g+32) contains the coordinate. */
  function WorldPosToGridFloor(worldX: real, worldY: real): GridPosition
  {
    GridPosition((worldX / TileSize as real).Floor, (worldY / TileSize as real).Floor)
  }

  /** Truncating a whole number gives the number back. */
  lemma TruncOfInt(k: int)
    ensures Trunc(k as real) == k
  {
    var i := Trunc(k as real);
    if 0 <= k {
      assert i as real <= k as real < i as real + 1.0;
    } else {
      assert i as real - 1.0 < k as real <= i as real;
    }
  }

  /** Converting a cell to world coordinates and back yields the same cell. */
  lemma RoundTrip(p: GridPosition)
    ensures WorldPosToGrid(ToWorldPos(p).0, ToWorldPos(p).1) == p
  {
    var (wx, wy) := ToWorldPos(p);
    assert wx / TileSize as real == p.x as real;
    assert wy / TileSize as real == p.y as real;
    TruncOfInt(p.x);
    TruncOfInt(p.y);
  }

  /** Every world coordinate strictly between -32 and 32 lands in grid column (or row) 0. */
  lemma NearOriginTruncatesToZero(worldX: real, worldY: real)
    requires -(TileSize as real) < worldX < TileSize as real
    requires -(TileSize as real) < worldY < TileSize as real
    ensures WorldPosToGrid(worldX, worldY) == GridPosition(0, 0)
  {
    var gx := Trunc(worldX / TileSize as real);
    var gy := Trunc(worldY / TileSize as real);
    assert -1.0 < worldX / TileSize as real < 1.0;
    assert -1.0 < worldY / TileSize as real < 1.0;
    assert gx == 0;
    assert gy == 0;
  }

  /** For non-negative coordinates the source's conversion finds the containing cell. */
  lemma NonNegativeConversionContainsPoint(worldX: real, worldY: real)
    requires 0.0 <= worldX && 0.0 <= worldY
    ensures var g := WorldPosToGrid(worldX, worldY);
      && (g.x * TileSize) as real <= worldX < ((g.x + 1) * TileSize) as real
      && (g.y * TileSize) as real <= worldY < ((g.y + 1) * TileSize) as real
  {
    var g := WorldPosToGrid(worldX, worldY);
    assert g.x as real <= worldX / 32.0 < g.x as real + 1.0;
    assert g.y as real <= worldY / 32.0 < g.y as real + 1.0;
  }

  /**
   * The truncating conversion places the point (-16, -16), which lies in the
   * cell (-1, -1), into the cell (0, 0).
   */
  lemma TruncationMisplacesNegativeTile()
    ensures WorldPosToGrid(-16.0, -16.0) == GridPosition(0, 0)
    ensures var (wx, wy) := ToWorldPos(GridPosition(0, 0)); -16.0 < wx && -16.0 < wy
    ensures WorldPosToGridFloor(-16.0, -16.0) == GridPosition(-1, -1)
  {
    NearOriginTruncatesToZero(-16.0, -16.0);
    assert (-16.0 / 32.0).Floor == -1;
  }

  /** The flooring conversion finds the containing cell for every coordinate. */
  lemma FloorConversionContainsPoint(worldX: real, worldY: real)
    ensures var g := WorldPosToGridFloor(worldX, worldY);
      && (g.x * TileSize) as real <= worldX < ((g.x + 1) * TileSize) as real
      && (g.y * TileSize) as real <= worldY < ((g.y + 1) * TileSize) as real
  {
    var g := WorldPosToGridFloor(worldX, worldY);
    assert g.x as real <= worldX / 32.0 < g.x as real + 1.0;
    assert g.y as real <= worldY / 32.0 < g.y as real + 1.0;
  }

  /** The flooring conversion is also a left inverse of ToWorldPos. */
  lemma FloorRoundTrip(p: GridPosition)
    ensures WorldPosToGridFloor(ToWorldPos(p).0, ToWorldPos(p).1) == p
  {
    var (wx, wy) := ToWorldPos(p);
    assert wx / TileSize as real == p.x as real;
    assert wy / TileSize as real == p.y as real;
  }
}

=== FILE: game.dfy ===
/**
 * The world: grid occupancy, deposit map, miners, floating tokens and the
 * Core, with placement, lazy chunk generation and the per-tick protocol
 * (internal/game/world.go).
 */
module Game {
  import opened Wrappers
  import opened Entity
  import opened Numbers
  import opened Deposits
  import Miners
  import Cores
  import opened Generation

  datatype BuildingType = BuildingMiner | BuildingConveyor | BuildingProcessor

  /** What a grid cell refers to: the single Core, or the miner at an index of `miners`. */
  datatype Occupant = CoreEntity | MinerEntity(index: nat)

  datatype World = World(
    grid: map<GridPosition, Occupant>,
    deposits: map<GridPosition, NumberDeposit>,
    core: Cores.Core,
    miners: seq<Miners.Miner>,
    numbers: seq<Number>,
    selectedBuilding: BuildingType,
    buildMode: bool,
    generatedChunks: set<ChunkPosition>)

  // ---------------------------------------------------------------------------
  // Occupancy

  /**
   * `after` is `before` with every cell of the region mapped to `e`, every
   * other key kept with its old occupant, and no other key added.
   */
  ghost predicate Overwrites(before: map<GridPosition, Occupant>, after: map<GridPosition, Occupant>,
                             region: Region, e: Occupant)
  {
    && (forall p :: p in after <==> p in before || Contains(region, p))
    && (forall p :: Contains(region, p) ==> after[p] == e)
    && (forall p :: p in before && !Contains(region, p) ==> after[p] == before[p])
  }

  lemma OverwritesTrans(a: map<GridPosition, Occupant>, b: map<GridPosition, Occupant>,
                        c: map<GridPosition, Occupant>, r1: Region, r2: Region, r: Region, e: Occupant)
    requires Overwrites(a, b, r1, e) && Overwrites(b, c, r2, e)
    requires forall p :: Contains(r, p) <==> Contains(r1, p) || Contains(r2, p)
    ensures Overwrites(a, c, r, e)
  {
  }

  /** The inner placement loop over dy, for one column. */
  function PlaceColumn(grid: map<GridPosition, Occupant>, x: int, y: int, yEnd: int, e: Occupant)
    : (r: map<GridPosition, Occupant>)
    ensures Overwrites(grid, r, Rect(x, y, x + 1, yEnd), e)
    decreases yEnd - y
  {
    if y >= yEnd then grid
    else
      var g := grid[GridPosition(x, y) := e];
      var r := PlaceColumn(g, x, y + 1, yEnd, e);
      OverwritesTrans(grid, g, r, Rect(x, y, x + 1, y + 1), Rect(x, y + 1, x + 1, yEnd), Rect(x, y, x + 1, yEnd), e);
      r
  }

  /** The outer placement loop over dx. */
  function PlaceColumns(grid: map<GridPosition, Occupant>, x: int, xEnd: int, y: int, yEnd: int, e: Occupant)
    : (r: map<GridPosition, Occupant>)
    ensures Overwrites(grid, r, Rect(x, y, xEnd, yEnd), e)
    decreases xEnd - x
  {
    if x >= xEnd then grid
    else
      var g := PlaceColumn(grid, x, y, yEnd, e);
      var r := PlaceColumns(g, x + 1, xEnd, y, yEnd, e);
      OverwritesTrans(grid, g, r, Rect(x, y, x + 1, yEnd), Rect(x + 1, y, xEnd, yEnd), Rect(x, y, xEnd, yEnd), e);
      r
  }

  /** Maps every cell of the sizeX x sizeY footprint at `anchor` to the entity. */
  function PlaceEntity(grid: map<GridPosition, Occupant>, anchor: GridPosition, sizeX: int, sizeY: int, e: Occupant)
    : (r: map<GridPosition, Occupant>)
    ensures Overwrites(grid, r, Rect(anchor.x, anchor.y, anchor.x + sizeX, anchor.y + sizeY), e)
  {
    PlaceColumns(grid, anchor.x, anchor.x + sizeX, anchor.y, anchor.y + sizeY, e)
  }

  predicate IsPositionOccupied(w: World, pos: GridPosition)
  {
    pos in w.grid || Cores.OccupiesPosition(pos)
  }

  predicate HasDepositAt(w: World, pos: GridPosition)
  {
    pos in w.deposits && CanBeMined(w.deposits[pos])
  }

  /** The placement preview rule. */
  predicate CanPlaceAt(w: World, pos: GridPosition)
  {
    match w.selectedBuilding
    case BuildingMiner => !IsPositionOccupied(w, pos) && HasDepositAt(w, pos)
    case _ => !IsPositionOccupied(w, pos)
  }

  // ---------------------------------------------------------------------------
  // Invariant

  /** Miner `i` is on the grid at its position, bound to the occupied deposit below it. */
  ghost predicate MinerPlaced(w: World, i: int)
    requires 0 <= i < |w.miners|
  {
    var m := w.miners[i];
    && m.position in w.grid && w.grid[m.position] == MinerEntity(i)
    && m.deposit == Some(m.position)
    && m.position in w.deposits && w.deposits[m.position].isMined
    && Miners.Valid(m)
  }

  /**
   * The bookkeeping every reachable world keeps: the Core owns exactly its four
   * cells, grid entries and the miner list agree, every miner sits on its
   * occupied deposit, deposits are keyed by position, and the Core's history
   * is consistent.
   */
  ghost predicate Invariant(w: World)
  {
    && (forall p :: Cores.OccupiesPosition(p) ==> p in w.grid && w.grid[p] == CoreEntity)
    && (forall p :: p in w.grid && w.grid[p].CoreEntity? ==> Cores.OccupiesPosition(p))
    && (forall p :: p in w.grid && w.grid[p].MinerEntity? ==>
          w.grid[p].index < |w.miners| && w.miners[w.grid[p].index].position == p)
    && (forall i :: 0 <= i < |w.miners| ==> MinerPlaced(w, i))
    && WellKeyed(w.deposits)
    && Cores.Consistent(w.core)
  }

  /** The world at start-up: the Core at the origin and the area [-20, 20) x [-20, 20) generated. */
  function NewWorld(rng: Rng, draw: GridPosition -> real): (w: World)
    requires ValidRng(rng)
    ensures Invariant(w)
    ensures w.miners == [] && w.numbers == [] && Cores.GetStoredCount(w.core) == 0
    ensures forall p :: p in w.grid <==> Cores.OccupiesPosition(p)
    ensures Extends(map[], w.deposits, rng, draw, Rect(-20, -20, 20, 20))
    ensures w.core == Cores.NewCore(0.0, 0.0)
    ensures w.selectedBuilding == BuildingMiner && !w.buildMode && w.generatedChunks == {}
  {
    var grid := CoreGrid();
    var deposits := GenerateArea(map[], rng, draw, -20, -20, 40, 40);
    ExtendsKeepsWellKeyed(map[], deposits, rng, draw, Rect(-20, -20, 20, 20));
    World(grid, deposits, Cores.NewCore(0.0, 0.0), [], [], BuildingMiner, false, {})
  }

  /** The grid holding only the Core, placed over its 2 x 2 footprint at the origin. */
  function CoreGrid(): (g: map<GridPosition, Occupant>)
    ensures forall p :: p in g <==> Cores.OccupiesPosition(p)
    ensures forall p :: p in g ==> g[p] == CoreEntity
  {
    var anchor := Cores.CoreAnchor;
    var g := PlaceEntity(map[], anchor, Cores.CoreCells, Cores.CoreCells, CoreEntity);
    var footprint := Rect(anchor.x, anchor.y, anchor.x + Cores.CoreCells, anchor.y + Cores.CoreCells);
    assert forall p :: Contains(footprint, p) <==> Cores.OccupiesPosition(p);
    g
  }

  // ---------------------------------------------------------------------------
  // Placement

  /** Validates, then places a miner facing right on a free cell holding a mineable deposit. */
  function TryPlaceMiner(w: World, pos: GridPosition): (r: World)
    ensures IsPositionOccupied(w, pos) || pos !in w.deposits || !CanBeMined(w.deposits[pos]) ==> r == w
    ensures !IsPositionOccupied(w, pos) && pos in w.deposits && CanBeMined(w.deposits[pos]) ==>
      && r.deposits.Keys == w.deposits.Keys
      && r.deposits[pos] == w.deposits[pos].(isMined := true)
      && (forall q :: q in w.deposits && q != pos ==> r.deposits[q] == w.deposits[q])
      && r.miners == w.miners + [Miners.NewMiner(pos.x, pos.y, Some(pos), Miners.DirectionRight)]
      && r.grid == w.grid[pos := MinerEntity(|w.miners|)]
      && r.(deposits := w.deposits, miners := w.miners, grid := w.grid) == w
  {
    if IsPositionOccupied(w, pos) then w
    else if pos !in w.deposits || !CanBeMined(w.deposits[pos]) then w
    else
      var deposit := w.deposits[pos];
      var miner := Miners.NewMiner(pos.x, pos.y, Some(pos), Miners.DirectionRight);
      var (sizeX, sizeY) := Miners.GetSize(miner);
      var grid := PlaceEntity(w.grid, pos, sizeX, sizeY, MinerEntity(|w.miners|));
      PlaceSingleCell(w.grid, pos, MinerEntity(|w.miners|));
      w.(deposits := w.deposits[pos := SetMined(deposit, true)],
         miners := w.miners + [miner],
         grid := grid)
  }

  /** A 1 x 1 footprint is the anchor cell alone. */
  lemma SingleCell(r: Region, pos: GridPosition)
    requires r == Rect(pos.x, pos.y, pos.x + 1, pos.y + 1)
    ensures forall q :: Contains(r, q) <==> q == pos
  {
  }

  /** Placing a 1 x 1 entity is a single map update. */
  lemma PlaceSingleCell(grid: map<GridPosition, Occupant>, pos: GridPosition, e: Occupant)
    ensures PlaceEntity(grid, pos, 1, 1, e) == grid[pos := e]
  {
    SingleCell(Rect(pos.x, pos.y, pos.x + 1, pos.y + 1), pos);
  }

  /** Placement dispatch: only miners have a placement rule. */
  function TryPlaceBuilding(w: World, pos: GridPosition): (r: World)
    ensures w.selectedBuilding != BuildingMiner ==> r == w
    ensures w.selectedBuilding == BuildingMiner ==> r == TryPlaceMiner(w, pos)
  {
    match w.selectedBuilding
    case BuildingMiner => TryPlaceMiner(w, pos)
    case _ => w
  }

  /** With miners selected, the preview says "valid" exactly when placement would succeed. */
  lemma CanPlaceAtPredictsPlacement(w: World, pos: GridPosition)
    requires w.selectedBuilding == BuildingMiner
    ensures CanPlaceAt(w, pos) <==> TryPlaceBuilding(w, pos) != w
  {
    if CanPlaceAt(w, pos) {
      assert |TryPlaceMiner(w, pos).miners| == |w.miners| + 1;
    }
  }

  lemma TryPlaceMinerKeepsInvariant(w: World, pos: GridPosition)
    requires Invariant(w)
    ensures Invariant(TryPlaceMiner(w, pos))
  {
    var r := TryPlaceMiner(w, pos);
    if !IsPositionOccupied(w, pos) && pos in w.deposits && CanBeMined(w.deposits[pos]) {
      PlacementKeepsInvariant(w, r, pos);
    }
  }

  /** The invariant survives adding one miner on a free cell over a deposit, bound to it. */
  lemma PlacementKeepsInvariant(w: World, r: World, pos: GridPosition)
    requires Invariant(w) && !IsPositionOccupied(w, pos) && pos in w.deposits
    requires r.grid == w.grid[pos := MinerEntity(|w.miners|)]
    requires r.deposits == w.deposits[pos := SetMined(w.deposits[pos], true)]
    requires r.miners == w.miners + [Miners.NewMiner(pos.x, pos.y, Some(pos), Miners.DirectionRight)]
    requires r.core == w.core
    ensures Invariant(r)
  {
    PlacementKeepsGrid(w, r, pos);
    PlacementKeepsMiners(w, r, pos);
    FlaggingKeepsWellKeyed(w.deposits, pos);
  }

  /** Flagging one deposit keeps the deposit map keyed by position. */
  lemma FlaggingKeepsWellKeyed(deposits: map<GridPosition, NumberDeposit>, pos: GridPosition)
    requires WellKeyed(deposits) && pos in deposits
    ensures WellKeyed(deposits[pos := SetMined(deposits[pos], true)])
  {
  }

  /** The grid half of PlacementKeepsInvariant. */
  lemma PlacementKeepsGrid(w: World, r: World, pos: GridPosition)
    requires Invariant(w) && !IsPositionOccupied(w, pos)
    requires r.grid == w.grid[pos := MinerEntity(|w.miners|)]
    requires r.miners == w.miners + [Miners.NewMiner(pos.x, pos.y, Some(pos), Miners.DirectionRight)]
    ensures forall p :: Cores.OccupiesPosition(p) ==> p in r.grid && r.grid[p] == CoreEntity
    ensures forall p :: p in r.grid && r.grid[p].CoreEntity? ==> Cores.OccupiesPosition(p)
    ensures forall p :: p in r.grid && r.grid[p].MinerEntity? ==>
      r.grid[p].index < |r.miners| && r.miners[r.grid[p].index].position == p
  {
    forall p | p in r.grid && r.grid[p].MinerEntity?
      ensures r.grid[p].index < |r.miners| && r.miners[r.grid[p].index].position == p
    {
      if p != pos {
        assert r.miners[w.grid[p].index] == w.miners[w.grid[p].index];
      }
    }
  }

  /** The miner half of PlacementKeepsInvariant. */
  lemma PlacementKeepsMiners(w: World, r: World, pos: GridPosition)
    requires Invariant(w) && !IsPositionOccupied(w, pos) && pos in w.deposits
    requires r.grid == w.grid[pos := MinerEntity(|w.miners|)]
    requires r.deposits == w.deposits[pos := SetMined(w.deposits[pos], true)]
    requires r.miners == w.miners + [Miners.NewMiner(pos.x, pos.y, Some(pos), Miners.DirectionRight)]
    ensures forall i :: 0 <= i < |r.miners| ==> MinerPlaced(r, i)
  {
    forall i | 0 <= i < |r.miners|
      ensures MinerPlaced(r, i)
    {
      if i < |w.miners| {
        assert MinerPlaced(w, i);
        assert r.miners[i] == w.miners[i];
      }
    }
  }

  /**
   * A freshly placed miner never extracts: placement marks its deposit
   * occupied, so its tick leaves it and the deposit unchanged.
   */
  lemma PlacedMinerNeverMines(w: World, pos: GridPosition)
    requires CanPlaceAt(w, pos) && w.selectedBuilding == BuildingMiner
    ensures var r := TryPlaceBuilding(w, pos);
      && |r.miners| == |w.miners| + 1
      && var m := r.miners[|w.miners|];
      && m.deposit == Some(pos)
      && !CanBeMined(r.deposits[pos])
      && Miners.Update(m, Some(r.deposits[pos])) == Miners.MinerTick(m, Some(r.deposits[pos]))
  {
  }

  /**
   * Placement as evidently intended: the grid entry alone keeps a second
   * miner off the cell, and the deposit is left unflagged so the miner can
   * extract from it.
   */
  function TryPlaceMinerUnflagged(w: World, pos: GridPosition): (r: World)
    ensures IsPositionOccupied(w, pos) || pos !in w.deposits || !CanBeMined(w.deposits[pos]) ==> r == w
    ensures !IsPositionOccupied(w, pos) && pos in w.deposits && CanBeMined(w.deposits[pos]) ==>
      && r.miners == w.miners + [Miners.NewMiner(pos.x, pos.y, Some(pos), Miners.DirectionRight)]
      && r.grid == w.grid[pos := MinerEntity(|w.miners|)]
      && r.(miners := w.miners, grid := w.grid) == w
  {
    if IsPositionOccupied(w, pos) then w
    else if pos !in w.deposits || !CanBeMined(w.deposits[pos]) then w
    else
      var miner := Miners.NewMiner(pos.x, pos.y, Some(pos), Miners.DirectionRight);
      var (sizeX, sizeY) := Miners.GetSize(miner);
      var grid := PlaceEntity(w.grid, pos, sizeX, sizeY, MinerEntity(|w.miners|));
      PlaceSingleCell(w.grid, pos, MinerEntity(|w.miners|));
      w.(miners := w.miners + [miner], grid := grid)
  }

  /**
   * With the corrected placement the new miner yields its deposit's value
   * after 120 ticks, and the cell is still closed to a second miner.
   */
  lemma UnflaggedPlacementMines(w: World, pos: GridPosition)
    requires CanPlaceAt(w, pos) && w.selectedBuilding == BuildingMiner
    ensures var r := TryPlaceMinerUnflagged(w, pos);
      && |r.miners| == |w.miners| + 1
      && var t := Miners.UpdateN(r.miners[|w.miners|], Some(r.deposits[pos]), Miners.DefaultMiningInterval);
      && |t.miner.outputBuffer| == 1
      && t.miner.outputBuffer[0].value == w.deposits[pos].numberValue
      && TryPlaceMiner(r, pos) == r
      && TryPlaceMinerUnflagged(r, pos) == r
  {
    Miners.FirstOutputAfterInterval(pos.x, pos.y, Some(pos), Miners.DirectionRight, w.deposits[pos]);
  }

  // ---------------------------------------------------------------------------
  // Chunks

  /** Generates the 16 x 16 tiles of one chunk. */
  function GenerateChunk(w: World, rng: Rng, draw: GridPosition -> real, c: ChunkPosition): (r: World)
    requires ValidRng(rng)
    ensures Extends(w.deposits, r.deposits, rng, draw, Chunks({c}))
    ensures r == w.(deposits := r.deposits)
  {
    var deposits := GenerateArea(w.deposits, rng, draw, c.x * ChunkSize, c.y * ChunkSize, ChunkSize, ChunkSize);
    ChunkRectIsChunkEverywhere(c);
    ExtendsSameCells(w.deposits, deposits, rng, draw, ChunkRect(c), Chunks({c}));
    w.(deposits := deposits)
  }

  lemma ChunkRectIsChunkEverywhere(c: ChunkPosition)
    ensures forall p :: Contains(ChunkRect(c), p) <==> Contains(Chunks({c}), p)
  {
    forall p
      ensures Contains(ChunkRect(c), p) <==> Contains(Chunks({c}), p)
    {
      ChunkRectIsChunk(c, p);
    }
  }

  function Elements<T>(s: seq<T>): set<T>
  {
    set x | x in s
  }

  datatype ChunkVisit = ChunkVisit(world: World, generated: seq<ChunkPosition>)

  /** Visits chunks in order, generating and marking each one not yet marked. */
  function VisitChunks(w: World, rng: Rng, draw: GridPosition -> real, cs: seq<ChunkPosition>): (v: ChunkVisit)
    requires ValidRng(rng)
    ensures forall c :: c in v.world.generatedChunks <==> c in w.generatedChunks || c in cs
    ensures forall c :: c in v.generated ==> c in cs && c !in w.generatedChunks
    ensures forall c :: c in cs && c !in w.generatedChunks ==> c in v.generated
    ensures forall i, j :: 0 <= i < j < |v.generated| ==> v.generated[i] != v.generated[j]
    ensures Extends(w.deposits, v.world.deposits, rng, draw, Chunks(Elements(v.generated)))
    ensures v.world == w.(deposits := v.world.deposits, generatedChunks := v.world.generatedChunks)
    decreases |cs|
  {
    if |cs| == 0 then
      ChunkVisit(w, [])
    else
      var c := cs[0];
      if c in w.generatedChunks then
        var v := VisitChunks(w, rng, draw, cs[1..]);
        ChunkVisit(v.world, v.generated)
      else
        var w1 := GenerateChunk(w, rng, draw, c).(generatedChunks := w.generatedChunks + {c});
        var v := VisitChunks(w1, rng, draw, cs[1..]);
        ConsChunk(c, v.generated);
        ExtendsTrans(w.deposits, w1.deposits, v.world.deposits, rng, draw,
                     Chunks({c}), Chunks(Elements(v.generated)), Chunks(Elements([c] + v.generated)));
        ChunkVisit(v.world, [c] + v.generated)
  }

  /** Putting a fresh chunk in front of a list of distinct chunks. */
  lemma ConsChunk(c: ChunkPosition, gen: seq<ChunkPosition>)
    ensures Elements([c] + gen) == {c} + Elements(gen)
    ensures c !in gen && (forall i, j :: 0 <= i < j < |gen| ==> gen[i] != gen[j]) ==>
      forall i, j :: 0 <= i < j < |[c] + gen| ==> ([c] + gen)[i] != ([c] + gen)[j]
  {
  }

  /** Go's integer division, truncating toward zero. */
  function GoDiv(a: int, b: int): (q: int)
    requires 0 < b
    ensures 0 <= a ==> b * q <= a < b * q + b
    ensures a < 0 ==> b * q - b < a <= b * q
  {
    if 0 <= a then a / b else -((-a) / b)
  }

  /** The chunk coordinate the source derives from a camera coordinate. */
  function CameraChunk(camera: real): int
  {
    GoDiv(Trunc(camera), ChunkSize * TileSize)
  }

  /** `c` is one of the nine chunks around `center`. */
  predicate Around(center: ChunkPosition, c: ChunkPosition)
  {
    -1 <= c.x - center.x <= 1 && -1 <= c.y - center.y <= 1
  }

  /** The 3 x 3 neighbourhood in loop order (dx outer, dy inner). */
  function Neighbourhood(center: ChunkPosition): (cs: seq<ChunkPosition>)
    ensures forall c :: c in cs <==> Around(center, c)
  {
    var x, y := center.x, center.y;
    [ChunkPosition(x - 1, y - 1), ChunkPosition(x - 1, y), ChunkPosition(x - 1, y + 1),
     ChunkPosition(x, y - 1), ChunkPosition(x, y), ChunkPosition(x, y + 1),
     ChunkPosition(x + 1, y - 1), ChunkPosition(x + 1, y), ChunkPosition(x + 1, y + 1)]
  }

  /**
   * Generates every unmarked chunk of the 3 x 3 neighbourhood of the camera's
   * chunk and marks all nine. `generated` lists the chunks generated, in order.
   */
  function GenerateAroundCamera(w: World, rng: Rng, draw: GridPosition -> real, cameraX: real, cameraY: real)
    : (v: ChunkVisit)
    requires ValidRng(rng)
    ensures var center := ChunkPosition(CameraChunk(cameraX), CameraChunk(cameraY));
      && (forall c :: Around(center, c) ==> c in v.world.generatedChunks)
      && (forall c :: c in v.world.generatedChunks <==> c in w.generatedChunks || Around(center, c))
      && (forall c :: c in v.generated ==> Around(center, c) && c !in w.generatedChunks)
      && (forall c :: Around(center, c) && c !in w.generatedChunks ==> c in v.generated)
      && (forall i, j :: 0 <= i < j < |v.generated| ==> v.generated[i] != v.generated[j])
    ensures Extends(w.deposits, v.world.deposits, rng, draw, Chunks(Elements(v.generated)))
    ensures v.world == w.(deposits := v.world.deposits, generatedChunks := v.world.generatedChunks)
  {
    var center := ChunkPosition(CameraChunk(cameraX), CameraChunk(cameraY));
    VisitChunks(w, rng, draw, Neighbourhood(center))
  }

  /** Generating a chunk keeps the world invariant: it only adds deposits on free cells. */
  lemma GenerateChunkKeepsInvariant(w: World, rng: Rng, draw: GridPosition -> real, c: ChunkPosition)
    requires ValidRng(rng) && Invariant(w)
    ensures Invariant(GenerateChunk(w, rng, draw, c))
  {
    var r := GenerateChunk(w, rng, draw, c);
    ExtendsKeepsWellKeyed(w.deposits, r.deposits, rng, draw, Chunks({c}));
    forall i | 0 <= i < |r.miners|
      ensures MinerPlaced(r, i)
    {
      assert MinerPlaced(w, i);
    }
  }

  /** The per-frame generation around the camera keeps the world invariant. */
  lemma GenerateAroundCameraKeepsInvariant(w: World, rng: Rng, draw: GridPosition -> real,
                                           cameraX: real, cameraY: real)
    requires ValidRng(rng) && Invariant(w)
    ensures Invariant(GenerateAroundCamera(w, rng, draw, cameraX, cameraY).world)
  {
    var v := GenerateAroundCamera(w, rng, draw, cameraX, cameraY);
    ExtendsKeepsWellKeyed(w.deposits, v.world.deposits, rng, draw, Chunks(Elements(v.generated)));
    forall i | 0 <= i < |v.world.miners|
      ensures MinerPlaced(v.world, i)
    {
      assert MinerPlaced(w, i);
    }
  }

  /**
   * The chunk truncation picks is the camera's own chunk or the one after it:
   * the floored chunk holding the camera is at most one below.
   */
  lemma CameraChunkNearFloorChunk(camera: real)
    ensures var own := (camera / TileSize as real).Floor / ChunkSize;
      CameraChunk(camera) - 1 <= own <= CameraChunk(camera)
  {
    var f := (camera / TileSize as real).Floor;
    var own := f / ChunkSize;
    assert ChunkSize * own <= f < ChunkSize * own + ChunkSize;
    assert (512 * own) as real <= camera < (512 * own + 512) as real;
  }

  /**
   * Although the camera chunk is found by truncation, the chunk that actually
   * holds the camera is always among the nine generated.
   */
  lemma CameraOwnChunkGenerated(w: World, rng: Rng, draw: GridPosition -> real, cameraX: real, cameraY: real)
    requires ValidRng(rng)
    ensures ChunkOf(WorldPosToGridFloor(cameraX, cameraY))
      in GenerateAroundCamera(w, rng, draw, cameraX, cameraY).world.generatedChunks
  {
    CameraChunkNearFloorChunk(cameraX);
    CameraChunkNearFloorChunk(cameraY);
  }

  // ---------------------------------------------------------------------------
  // The per-tick protocol

  datatype MinersTick = MinersTick(miners: seq<Miners.Miner>, deposits: map<GridPosition, NumberDeposit>)

  /** Ticks every miner once against its deposit, re-resolved by key in the deposit map. */
  function UpdateMiners(ms: seq<Miners.Miner>, deposits: map<GridPosition, NumberDeposit>): (t: MinersTick)
    ensures |t.miners| == |ms|
    ensures t.deposits.Keys == deposits.Keys
    ensures forall i :: 0 <= i < |ms| ==>
      t.miners[i].(miningTimer := ms[i].miningTimer, outputBuffer := ms[i].outputBuffer) == ms[i]
    ensures forall i :: 0 <= i < |ms| ==>
      ms[i].outputBuffer <= t.miners[i].outputBuffer && |t.miners[i].outputBuffer| <= |ms[i].outputBuffer| + 1
    ensures forall i :: 0 <= i < |ms| && Miners.Valid(ms[i]) ==> Miners.Valid(t.miners[i])
    decreases |ms|
  {
    if |ms| == 0 then MinersTick([], deposits)
    else
      var m := ms[0];
      var tick := Miners.Update(m, Lookup(deposits, m));
      var deposits' := WriteBack(deposits, m, tick);
      assert deposits'.Keys == deposits.Keys;
      var rest := UpdateMiners(ms[1..], deposits');
      var t := MinersTick([tick.miner] + rest.miners, rest.deposits);
      assert t.miners[0] == tick.miner && t.miners[1..] == rest.miners;
      t
  }

  /** The deposit a miner's key resolves to in the map, as the tick looks it up. */
  function Lookup(deposits: map<GridPosition, NumberDeposit>, m: Miners.Miner): Option<NumberDeposit>
  {
    if m.deposit.Some? && m.deposit.value in deposits then Some(deposits[m.deposit.value]) else None
  }

  /** The deposit map after a miner's tick wrote its deposit back through the pointer. */
  function WriteBack(deposits: map<GridPosition, NumberDeposit>, m: Miners.Miner, tick: Miners.MinerTick)
    : map<GridPosition, NumberDeposit>
  {
    if m.deposit.Some? && tick.deposit.Some? then deposits[m.deposit.value := tick.deposit.value] else deposits
  }

  /** No two miners are bound to the same deposit. */
  predicate DistinctDeposits(ms: seq<Miners.Miner>)
  {
    forall i, j :: 0 <= i < j < |ms| && ms[i].deposit.Some? && ms[j].deposit.Some? ==>
      ms[i].deposit.value != ms[j].deposit.value
  }

  /** One step of the tick loop: the first miner, then the rest against the written-back map. */
  lemma UpdateMinersUnfold(ms: seq<Miners.Miner>, deposits: map<GridPosition, NumberDeposit>)
    requires |ms| > 0
    ensures var tick := Miners.Update(ms[0], Lookup(deposits, ms[0]));
      var rest := UpdateMiners(ms[1..], WriteBack(deposits, ms[0], tick));
      && UpdateMiners(ms, deposits).miners == [tick.miner] + rest.miners
      && UpdateMiners(ms, deposits).deposits == rest.deposits
  {
  }

  lemma DistinctTail(ms: seq<Miners.Miner>)
    requires |ms| > 0 && DistinctDeposits(ms)
    ensures DistinctDeposits(ms[1..])
    ensures forall j :: 0 <= j < |ms[1..]| ==> ms[1..][j] == ms[j + 1]
  {
  }

  /** A write-back through one key leaves every other miner's lookup as it was. */
  lemma LookupElsewhere(deposits: map<GridPosition, NumberDeposit>, m: Miners.Miner, tick: Miners.MinerTick,
                        other: Miners.Miner)
    requires m.deposit.Some? && other.deposit.Some? ==> m.deposit.value != other.deposit.value
    ensures Lookup(WriteBack(deposits, m, tick), other) == Lookup(deposits, other)
  {
  }

  /** Miner i of the tick is `Miners.Update` of miner i against its deposit as it stood before the tick. */
  lemma {:induction false} UpdateMinersTicksAt(ms: seq<Miners.Miner>, deposits: map<GridPosition, NumberDeposit>, i: nat)
    requires DistinctDeposits(ms) && i < |ms|
    ensures UpdateMiners(ms, deposits).miners[i] == Miners.Update(ms[i], Lookup(deposits, ms[i])).miner
    decreases i
  {
    UpdateMinersUnfold(ms, deposits);
    if i > 0 {
      var tick := Miners.Update(ms[0], Lookup(deposits, ms[0]));
      var deposits' := WriteBack(deposits, ms[0], tick);
      DistinctTail(ms);
      UpdateMinersTicksAt(ms[1..], deposits', i - 1);
      LookupElsewhere(deposits, ms[0], tick, ms[i]);
    }
  }

  /** A deposit no miner is bound to comes out of the tick unchanged. */
  lemma {:induction false} UpdateMinersKeepsUnbound(ms: seq<Miners.Miner>, deposits: map<GridPosition, NumberDeposit>,
                                                    p: GridPosition)
    requires p in deposits && forall i :: 0 <= i < |ms| ==> ms[i].deposit != Some(p)
    ensures UpdateMiners(ms, deposits).deposits[p] == deposits[p]
    decreases |ms|
  {
    if |ms| > 0 {
      UpdateMinersUnfold(ms, deposits);
      var tick := Miners.Update(ms[0], Lookup(deposits, ms[0]));
      var deposits' := WriteBack(deposits, ms[0], tick);
      assert ms[0].deposit != Some(p);
      assert forall j :: 0 <= j < |ms[1..]| ==> ms[1..][j] == ms[j + 1];
      UpdateMinersKeepsUnbound(ms[1..], deposits', p);
    }
  }

  /** A miner's tick hands back a deposit whenever it was given one. */
  lemma TickReturnsDeposit(m: Miners.Miner, dep: Option<NumberDeposit>)
    requires dep.Some?
    ensures Miners.Update(m, dep).deposit.Some?
  {
  }

  /** No miner other than miner i is bound to miner i's deposit. */
  predicate UniqueDeposit(ms: seq<Miners.Miner>, i: nat)
    requires i < |ms|
  {
    forall j :: 0 <= j < |ms| && j != i ==> ms[j].deposit != ms[i].deposit
  }

  /** The first miner's deposit: written back by its own tick and untouched by the rest. */
  lemma WritesBackFirst(ms: seq<Miners.Miner>, deposits: map<GridPosition, NumberDeposit>)
    requires |ms| > 0 && UniqueDeposit(ms, 0) && Lookup(deposits, ms[0]).Some?
    ensures Some(UpdateMiners(ms, deposits).deposits[ms[0].deposit.value])
      == Miners.Update(ms[0], Lookup(deposits, ms[0])).deposit
  {
    UpdateMinersUnfold(ms, deposits);
    var tick := Miners.Update(ms[0], Lookup(deposits, ms[0]));
    TickReturnsDeposit(ms[0], Lookup(deposits, ms[0]));
    var k := ms[0].deposit.value;
    var deposits' := WriteBack(deposits, ms[0], tick);
    assert deposits'[k] == tick.deposit.value;
    forall j | 0 <= j < |ms[1..]|
      ensures ms[1..][j].deposit != Some(k)
    {
      assert ms[1..][j] == ms[j + 1];
    }
    UpdateMinersKeepsUnbound(ms[1..], deposits', k);
  }

  /** Miner i's deposit comes out of the tick as miner i's own tick left it. */
  lemma {:induction false} UpdateMinersWritesBackAt(ms: seq<Miners.Miner>, deposits: map<GridPosition, NumberDeposit>, i: nat)
    requires i < |ms| && UniqueDeposit(ms, i) && Lookup(deposits, ms[i]).Some?
    ensures Some(UpdateMiners(ms, deposits).deposits[ms[i].deposit.value])
      == Miners.Update(ms[i], Lookup(deposits, ms[i])).deposit
    decreases i
  {
    if i == 0 {
      WritesBackFirst(ms, deposits);
    } else {
      UpdateMinersUnfold(ms, deposits);
      var tick := Miners.Update(ms[0], Lookup(deposits, ms[0]));
      var deposits' := WriteBack(deposits, ms[0], tick);
      assert ms[0].deposit != ms[i].deposit;
      LookupElsewhere(deposits, ms[0], tick, ms[i]);
      assert UniqueDeposit(ms[1..], i - 1) by {
        forall j | 0 <= j < |ms[1..]| && j != i - 1
          ensures ms[1..][j].deposit != ms[1..][i - 1].deposit
        {
          assert ms[1..][j] == ms[j + 1];
        }
      }
      UpdateMinersWritesBackAt(ms[1..], deposits', i - 1);
    }
  }

  /**
   * With distinct deposits the miners are independent: each is ticked by
   * `Miners.Update` against its own deposit as it stood before the tick, so
   * the order of the loop does not matter.
   */
  lemma {:induction false} UpdateMinersTicksEach(ms: seq<Miners.Miner>, deposits: map<GridPosition, NumberDeposit>)
    requires DistinctDeposits(ms)
    ensures forall i :: 0 <= i < |ms| ==>
      UpdateMiners(ms, deposits).miners[i] == Miners.Update(ms[i], Lookup(deposits, ms[i])).miner
  {
    forall i | 0 <= i < |ms|
      ensures UpdateMiners(ms, deposits).miners[i] == Miners.Update(ms[i], Lookup(deposits, ms[i])).miner
    {
      UpdateMinersTicksAt(ms, deposits, i);
    }
  }

  /**
   * With distinct deposits, each miner's deposit is written back as its own
   * tick left it, and every deposit no miner is bound to is unchanged.
   */
  lemma {:induction false} UpdateMinersWritesBack(ms: seq<Miners.Miner>, deposits: map<GridPosition, NumberDeposit>)
    requires DistinctDeposits(ms)
    ensures forall i :: 0 <= i < |ms| && Lookup(deposits, ms[i]).Some? ==>
      Some(UpdateMiners(ms, deposits).deposits[ms[i].deposit.value]) == Miners.Update(ms[i], Lookup(deposits, ms[i])).deposit
    ensures forall p :: p in deposits && (forall i :: 0 <= i < |ms| ==> ms[i].deposit != Some(p)) ==>
      UpdateMiners(ms, deposits).deposits[p] == deposits[p]
  {
    forall i | 0 <= i < |ms| && Lookup(deposits, ms[i]).Some?
      ensures Some(UpdateMiners(ms, deposits).deposits[ms[i].deposit.value]) == Miners.Update(ms[i], Lookup(deposits, ms[i])).deposit
    {
      assert UniqueDeposit(ms, i);
      UpdateMinersWritesBackAt(ms, deposits, i);
    }
    forall p | p in deposits && (forall i :: 0 <= i < |ms| ==> ms[i].deposit != Some(p))
      ensures UpdateMiners(ms, deposits).deposits[p] == deposits[p]
    {
      UpdateMinersKeepsUnbound(ms, deposits, p);
    }
  }

  /** In every reachable world the miners are bound to distinct deposits: their own cells. */
  lemma InvariantGivesDistinctDeposits(w: World)
    requires Invariant(w)
    ensures DistinctDeposits(w.miners)
  {
    forall i, j | 0 <= i < j < |w.miners| && w.miners[i].deposit.Some? && w.miners[j].deposit.Some?
      ensures w.miners[i].deposit.value != w.miners[j].deposit.value
    {
      assert MinerPlaced(w, i) && MinerPlaced(w, j);
    }
  }

  /** When every miner's deposit is occupied, as it is for every placed miner, the tick changes nothing. */
  lemma {:induction false} OccupiedMinersIdle(ms: seq<Miners.Miner>, deposits: map<GridPosition, NumberDeposit>)
    requires forall i :: 0 <= i < |ms| ==>
      ms[i].deposit.Some? && ms[i].deposit.value in deposits && deposits[ms[i].deposit.value].isMined
    ensures UpdateMiners(ms, deposits) == MinersTick(ms, deposits)
    decreases |ms|
  {
    if |ms| > 0 {
      var m := ms[0];
      assert deposits[m.deposit.value := deposits[m.deposit.value]] == deposits;
      OccupiedMinersIdle(ms[1..], deposits);
      assert [ms[0]] + ms[1..] == ms;
    }
  }

  /** Tokens held in miners' output buffers. */
  function BufferTotal(ms: seq<Miners.Miner>): nat
  {
    if |ms| == 0 then 0 else |ms[0].outputBuffer| + BufferTotal(ms[1..])
  }

  datatype Emitted = Emitted(miners: seq<Miners.Miner>, numbers: seq<Number>)

  datatype Handoff = Handoff(miner: Miners.Miner, numbers: seq<Number>)

  /**
   * One miner's turn: with a ready token it hands its oldest token to the
   * floating list, placed at the centre of its output cell.
   */
  function EmitOne(m: Miners.Miner, numbers: seq<Number>): (h: Handoff)
    ensures h.miner.(outputBuffer := m.outputBuffer) == m
    ensures |m.outputBuffer| == 0 ==> h == Handoff(m, numbers)
    ensures |m.outputBuffer| > 0 ==>
      && h.miner.outputBuffer == m.outputBuffer[1..]
      && |h.numbers| == |numbers| + 1 && h.numbers[..|numbers|] == numbers
      && var (cx, cy) := Miners.CellCenter(Miners.GetOutputPosition(m));
         h.numbers == numbers + [m.outputBuffer[0].(body := m.outputBuffer[0].body.(x := cx, y := cy))]
  {
    if Miners.HasOutputReady(m) then
      var o := Miners.TryOutputNumber(m);
      var (cx, cy) := Miners.CellCenter(Miners.GetOutputPosition(m));
      var n := o.number.value;
      Handoff(o.miner, numbers + [n.(body := n.body.(x := cx, y := cy))])
    else
      Handoff(m, numbers)
  }

  /** The values at the heads of the non-empty buffers, in miner order. */
  function Heads(ms: seq<Miners.Miner>): seq<int>
  {
    if |ms| == 0 then [] else HeadOf(ms[0]) + Heads(ms[1..])
  }

  /** The value at the head of a miner's buffer, if it holds one. */
  function HeadOf(m: Miners.Miner): seq<int>
  {
    if |m.outputBuffer| > 0 then [m.outputBuffer[0].value] else []
  }

  /** The head token of a miner's buffer moved to the centre of its output cell, if it holds one. */
  function HeadToken(m: Miners.Miner): seq<Number>
  {
    if |m.outputBuffer| > 0 then
      var (cx, cy) := Miners.CellCenter(Miners.GetOutputPosition(m));
      [m.outputBuffer[0].(body := m.outputBuffer[0].body.(x := cx, y := cy))]
    else []
  }

  /** The head tokens of the non-empty buffers, each at its miner's output cell, in miner order. */
  function HeadTokens(ms: seq<Miners.Miner>): seq<Number>
  {
    if |ms| == 0 then [] else HeadToken(ms[0]) + HeadTokens(ms[1..])
  }

  /** Every miner in order takes its turn handing off a token. */
  function EmitOutputs(ms: seq<Miners.Miner>, numbers: seq<Number>): (e: Emitted)
    ensures |e.miners| == |ms|
    ensures forall i :: 0 <= i < |ms| ==> e.miners[i].(outputBuffer := ms[i].outputBuffer) == ms[i]
    ensures forall i :: 0 <= i < |ms| && |ms[i].outputBuffer| == 0 ==> e.miners[i] == ms[i]
    ensures forall i :: 0 <= i < |ms| && |ms[i].outputBuffer| > 0 ==>
      e.miners[i].outputBuffer == ms[i].outputBuffer[1..]
    ensures |numbers| <= |e.numbers| <= |numbers| + |ms| && e.numbers[..|numbers|] == numbers
    ensures |e.numbers| + BufferTotal(e.miners) == |numbers| + BufferTotal(ms)
    decreases |ms|
  {
    if |ms| == 0 then Emitted([], numbers)
    else
      var h := EmitOne(ms[0], numbers);
      var rest := EmitOutputs(ms[1..], h.numbers);
      var e := Emitted([h.miner] + rest.miners, rest.numbers);
      assert e.miners[1..] == rest.miners;
      e
  }

  /**
   * The tokens appended by the handoff carry exactly the values at the heads
   * of the non-empty buffers, in miner order, after the tokens already afloat.
   */
  lemma {:induction false} EmitOutputsCarriesHeads(ms: seq<Miners.Miner>, numbers: seq<Number>)
    ensures Cores.Values(EmitOutputs(ms, numbers).numbers) == Cores.Values(numbers) + Heads(ms)
    decreases |ms|
  {
    if |ms| > 0 {
      var h := EmitOne(ms[0], numbers);
      EmitOutputsCarriesHeads(ms[1..], h.numbers);
      assert EmitOutputs(ms, numbers).numbers == EmitOutputs(ms[1..], h.numbers).numbers;
      EmitOneValues(ms[0], numbers);
      EmitStep(ms, Cores.Values(numbers), Cores.Values(h.numbers), Cores.Values(EmitOutputs(ms[1..], h.numbers).numbers));
    }
  }

  /**
   * The handoff appends to the floating list exactly the head token of each
   * non-empty buffer, placed at the centre of its miner's output cell, in
   * miner order.
   */
  lemma {:induction false} EmitOutputsHandsOffHeads(ms: seq<Miners.Miner>, numbers: seq<Number>)
    ensures EmitOutputs(ms, numbers).numbers == numbers + HeadTokens(ms)
    decreases |ms|
  {
    if |ms| > 0 {
      var h := EmitOne(ms[0], numbers);
      EmitOutputsHandsOffHeads(ms[1..], h.numbers);
      assert EmitOutputs(ms, numbers).numbers == EmitOutputs(ms[1..], h.numbers).numbers;
      assert h.numbers == numbers + HeadToken(ms[0]);
      assert numbers + HeadToken(ms[0]) + HeadTokens(ms[1..]) == numbers + HeadTokens(ms);
    }
  }

  /** The value bookkeeping of one step of EmitOutputs. */
  lemma EmitStep(ms: seq<Miners.Miner>, numbers: seq<int>, mid: seq<int>, after: seq<int>)
    requires |ms| > 0
    requires mid == numbers + HeadOf(ms[0]) && after == mid + Heads(ms[1..])
    ensures after == numbers + Heads(ms)
  {
  }

  /** One handoff appends the head value of the buffer, if any, to the values. */
  lemma EmitOneValues(m: Miners.Miner, numbers: seq<Number>)
    ensures Cores.Values(EmitOne(m, numbers).numbers) == Cores.Values(numbers) + HeadOf(m)
  {
    var h := EmitOne(m, numbers);
    if |m.outputBuffer| > 0 {
      Cores.ValuesAppend(numbers, h.numbers[|numbers|..]);
      assert h.numbers == numbers + h.numbers[|numbers|..];
    }
  }

  /** Centre of the Core in world coordinates: its anchor cell's corner plus one tile. */
  function CoreCenter(): (real, real)
  {
    var (wx, wy) := ToWorldPos(Cores.CoreAnchor);
    (wx + TileSize as real, wy + TileSize as real)
  }

  /** Squared distance below which a token is pulled toward the Core: (4 tiles) squared. */
  const AttractionRadiusSq: real := ((TileSize * 4) * (TileSize * 4)) as real
  /** Squared distance below which the Core absorbs a token. */
  const CollectRadiusSq: real := 400.0

  function SquaredDistanceToCore(b: Body): real
  {
    var (cx, cy) := CoreCenter();
    (b.x - cx) * (b.x - cx) + (b.y - cy) * (b.y - cy)
  }

  /**
   * A token after its own motion step (`b`) and, when inside the attraction
   * radius, MoveTo toward the Core, which starts it moving unless it is
   * exactly at the centre. Velocities are not modelled.
   */
  function Settle(n: Number, b: Body): (r: Number)
    ensures r.value == n.value && r.numberType == n.numberType
    ensures r.body.x == b.x && r.body.y == b.y
  {
    var d := SquaredDistanceToCore(b);
    if d < AttractionRadiusSq then n.(body := b.(isMoving := b.isMoving || d > 0.0))
    else n.(body := b)
  }

  predicate Absorbed(b: Body)
  {
    SquaredDistanceToCore(b) < CollectRadiusSq
  }

  datatype Settled = Settled(numbers: seq<Number>, core: Cores.Core)

  /** The tokens the pass keeps afloat, after their motion step, in list order. */
  function Kept(ts: seq<Number>, moved: nat -> Body): seq<Number>
    decreases |ts|
  {
    if |ts| == 0 then []
    else
      var i := |ts| - 1;
      Kept(ts[..i], moved) + (if Absorbed(moved(i)) then [] else [Settle(ts[i], moved(i))])
  }

  /** The values of the tokens the pass absorbs, in the order it visits them (last index first). */
  function Taken(ts: seq<Number>, moved: nat -> Body): seq<int>
    decreases |ts|
  {
    if |ts| == 0 then []
    else
      var i := |ts| - 1;
      (if Absorbed(moved(i)) then [ts[i].value] else []) + Taken(ts[..i], moved)
  }

  /**
   * The reverse-index pass over floating tokens. `moved(i)` is the body of
   * token i after its motion step this tick; an absorbed token is removed and
   * its value appended to the Core.
   */
  function Absorb(ts: seq<Number>, moved: nat -> Body, core: Cores.Core): (s: Settled)
    ensures |s.numbers| + |s.core.storedNumbers| == |ts| + |core.storedNumbers|
    ensures |core.storedNumbers| <= |s.core.storedNumbers|
    ensures s.core.storedNumbers[..|core.storedNumbers|] == core.storedNumbers
    ensures forall i :: 0 <= i < |s.numbers| ==> !Absorbed(s.numbers[i].body)
    ensures Cores.Consistent(core) ==> Cores.Consistent(s.core)
    ensures s.core.(storedNumbers := core.storedNumbers, numbers := core.numbers) == core
    decreases |ts|
  {
    if |ts| == 0 then Settled([], core)
    else
      var i := |ts| - 1;
      var n := Settle(ts[i], moved(i));
      if Absorbed(moved(i)) then
        Absorb(ts[..i], moved, Cores.CollectNumber(core, n))
      else
        var rest := Absorb(ts[..i], moved, core);
        Settled(rest.numbers + [n], rest.core)
  }

  /** Absorption keeps afloat exactly the tokens outside the collection radius, in order. */
  lemma {:induction false} AbsorbKeeps(ts: seq<Number>, moved: nat -> Body, core: Cores.Core)
    ensures Absorb(ts, moved, core).numbers == Kept(ts, moved)
    decreases |ts|
  {
    if |ts| > 0 {
      var i := |ts| - 1;
      var n := Settle(ts[i], moved(i));
      if Absorbed(moved(i)) {
        var collected := Cores.CollectNumber(core, n);
        assert Absorb(ts, moved, core) == Absorb(ts[..i], moved, collected);
        assert Kept(ts, moved) == Kept(ts[..i], moved);
        AbsorbKeeps(ts[..i], moved, collected);
      } else {
        var rest := Absorb(ts[..i], moved, core);
        assert Absorb(ts, moved, core).numbers == rest.numbers + [n];
        assert Kept(ts, moved) == Kept(ts[..i], moved) + [n];
        AbsorbKeeps(ts[..i], moved, core);
      }
    }
  }

  /** Absorption appends to the Core exactly the values of the tokens within the radius. */
  lemma {:induction false} AbsorbTakes(ts: seq<Number>, moved: nat -> Body, core: Cores.Core)
    ensures Absorb(ts, moved, core).core.storedNumbers == core.storedNumbers + Taken(ts, moved)
    decreases |ts|
  {
    if |ts| > 0 {
      var i := |ts| - 1;
      var n := Settle(ts[i], moved(i));
      if Absorbed(moved(i)) {
        var collected := Cores.CollectNumber(core, n);
        assert Absorb(ts, moved, core) == Absorb(ts[..i], moved, collected);
        assert Taken(ts, moved) == [ts[i].value] + Taken(ts[..i], moved);
        AbsorbTakes(ts[..i], moved, collected);
        assert collected.storedNumbers == core.storedNumbers + [ts[i].value];
      } else {
        assert Absorb(ts, moved, core).core == Absorb(ts[..i], moved, core).core;
        assert Taken(ts, moved) == Taken(ts[..i], moved);
        AbsorbTakes(ts[..i], moved, core);
      }
    }
  }

  /** The tokens the pass absorbs, after their motion step, in the order it visits them. */
  function TakenTokens(ts: seq<Number>, moved: nat -> Body): seq<Number>
    decreases |ts|
  {
    if |ts| == 0 then []
    else
      var i := |ts| - 1;
      (if Absorbed(moved(i)) then [Settle(ts[i], moved(i))] else []) + TakenTokens(ts[..i], moved)
  }

  /** Absorption appends to the Core's token list exactly the absorbed tokens, in visiting order. */
  lemma {:induction false} AbsorbStoresTokens(ts: seq<Number>, moved: nat -> Body, core: Cores.Core)
    ensures Absorb(ts, moved, core).core.numbers == core.numbers + TakenTokens(ts, moved)
    ensures Cores.Values(TakenTokens(ts, moved)) == Taken(ts, moved)
    decreases |ts|
  {
    if |ts| > 0 {
      var i := |ts| - 1;
      var n := Settle(ts[i], moved(i));
      if Absorbed(moved(i)) {
        var collected := Cores.CollectNumber(core, n);
        assert Absorb(ts, moved, core) == Absorb(ts[..i], moved, collected);
        assert TakenTokens(ts, moved) == [n] + TakenTokens(ts[..i], moved);
        AbsorbStoresTokens(ts[..i], moved, collected);
        Cores.ValuesAppend([n], TakenTokens(ts[..i], moved));
      } else {
        assert Absorb(ts, moved, core).core == Absorb(ts[..i], moved, core).core;
        assert TakenTokens(ts, moved) == TakenTokens(ts[..i], moved);
        AbsorbStoresTokens(ts[..i], moved, core);
      }
    }
  }

  /**
   * Absorption loses and duplicates nothing: the values of the tokens before
   * the pass are, as a multiset, the values still floating plus the values
   * newly appended to the Core.
   */
  ghost predicate Accounted(ts: seq<Number>, moved: nat -> Body, core: Cores.Core)
  {
    var s := Absorb(ts, moved, core);
    multiset(Cores.Values(ts))
      == multiset(Cores.Values(s.numbers)) + multiset(s.core.storedNumbers[|core.storedNumbers|..])
  }

  lemma {:induction false} AbsorbAccountsForValues(ts: seq<Number>, moved: nat -> Body, core: Cores.Core)
    ensures Accounted(ts, moved, core)
    decreases |ts|
  {
    if |ts| > 0 {
      var i := |ts| - 1;
      if Absorbed(moved(i)) {
        AbsorbAccountsForValues(ts[..i], moved, Cores.CollectNumber(core, Settle(ts[i], moved(i))));
        AbsorbedCase(ts, moved, core);
      } else {
        AbsorbAccountsForValues(ts[..i], moved, core);
        KeptCase(ts, moved, core);
      }
    }
  }

  lemma ValuesSnoc(ts: seq<Number>)
    requires |ts| > 0
    ensures Cores.Values(ts) == Cores.Values(ts[..|ts| - 1]) + [ts[|ts| - 1].value]
  {
  }

  /** The inductive step for a token the Core absorbs. */
  lemma AbsorbedCase(ts: seq<Number>, moved: nat -> Body, core: Cores.Core)
    requires |ts| > 0 && Absorbed(moved(|ts| - 1))
    requires Accounted(ts[..|ts| - 1], moved, Cores.CollectNumber(core, Settle(ts[|ts| - 1], moved(|ts| - 1))))
    ensures Accounted(ts, moved, core)
  {
    var i := |ts| - 1;
    var n := Settle(ts[i], moved(i));
    var core' := Cores.CollectNumber(core, n);
    ValuesSnoc(ts);
    assert Absorb(ts, moved, core) == Absorb(ts[..i], moved, core');
    AbsorbedStep(ts[..i], ts[i], n, moved, core, core');
  }

  /** The inductive step for a token that stays afloat. */
  lemma KeptCase(ts: seq<Number>, moved: nat -> Body, core: Cores.Core)
    requires |ts| > 0 && !Absorbed(moved(|ts| - 1))
    requires Accounted(ts[..|ts| - 1], moved, core)
    ensures Accounted(ts, moved, core)
  {
    var i := |ts| - 1;
    var n := Settle(ts[i], moved(i));
    var rest := Absorb(ts[..i], moved, core);
    ValuesSnoc(ts);
    assert n.value == ts[i].value;
    assert Absorb(ts, moved, core) == Settled(rest.numbers + [n], rest.core);
    KeptStep(rest.numbers, n);
  }

  /** Bookkeeping for a token the Core absorbs: its value heads the newly stored values. */
  lemma AbsorbedStep(prefix: seq<Number>, t: Number, n: Number, moved: nat -> Body,
                     core: Cores.Core, core': Cores.Core)
    requires n.value == t.value && core' == Cores.CollectNumber(core, n)
    requires Accounted(prefix, moved, core')
    ensures var s := Absorb(prefix, moved, core');
      multiset(Cores.Values(prefix) + [t.value])
        == multiset(Cores.Values(s.numbers)) + multiset(s.core.storedNumbers[|core.storedNumbers|..])
  {
    var s := Absorb(prefix, moved, core');
    var k := |core.storedNumbers|;
    var stored := s.core.storedNumbers;
    assert stored[..k + 1] == core'.storedNumbers;
    assert stored[k] == n.value;
    MultisetShift(Cores.Values(prefix), t.value, stored, k, multiset(Cores.Values(s.numbers)));
  }

  lemma MultisetShift(pre: seq<int>, v: int, stored: seq<int>, k: nat, rest: multiset<int>)
    requires k < |stored| && stored[k] == v
    requires multiset(pre) == rest + multiset(stored[k + 1..])
    ensures multiset(pre + [v]) == rest + multiset(stored[k..])
  {
    assert stored[k..] == [v] + stored[k + 1..];
  }

  /** Bookkeeping for a token that stays afloat. */
  lemma KeptStep(rest: seq<Number>, n: Number)
    ensures multiset(Cores.Values(rest + [n])) == multiset(Cores.Values(rest)) + multiset{n.value}
  {
    assert Cores.Values(rest + [n]) == Cores.Values(rest) + [n.value];
  }

  /**
   * One simulation tick: miners tick, each miner with output hands one token
   * to the floating list, then every floating token moves and may be absorbed.
   * `moved` supplies the bodies produced by the tokens' motion step.
   */
  function Update(w: World, moved: nat -> Body): (r: World)
    ensures r.grid == w.grid && r.generatedChunks == w.generatedChunks
    ensures r.selectedBuilding == w.selectedBuilding && r.buildMode == w.buildMode
    ensures |r.miners| == |w.miners|
    ensures |w.core.storedNumbers| <= |r.core.storedNumbers|
    ensures r.core.storedNumbers[..|w.core.storedNumbers|] == w.core.storedNumbers
  {
    var mt := UpdateMiners(w.miners, w.deposits);
    var core := Cores.Update(w.core);
    var em := EmitOutputs(mt.miners, w.numbers);
    var ab := Absorb(em.numbers, moved, core);
    w.(miners := em.miners, deposits := mt.deposits, numbers := ab.numbers, core := ab.core)
  }

  /** In a world that keeps the invariant the miners' tick is idle, so a tick only emits and absorbs. */
  lemma UpdateUnfoldsIdle(w: World, moved: nat -> Body)
    requires Invariant(w)
    ensures var em := EmitOutputs(w.miners, w.numbers);
      var ab := Absorb(em.numbers, moved, Cores.Update(w.core));
      Update(w, moved) == w.(miners := em.miners, numbers := ab.numbers, core := ab.core)
  {
    forall i | 0 <= i < |w.miners|
      ensures w.miners[i].deposit.Some? && w.miners[i].deposit.value in w.deposits
      ensures w.deposits[w.miners[i].deposit.value].isMined
    {
      assert MinerPlaced(w, i);
    }
    OccupiedMinersIdle(w.miners, w.deposits);
  }

  /**
   * Every token that leaves the floating list during a tick has its value
   * appended to the Core exactly once: the floating values after the miners'
   * handoff are, as a multiset, the values still floating plus the values the
   * Core stored this tick. Counted from before the handoff, the floating
   * values plus the buffer heads handed off are the same multiset.
   */
  lemma UpdateAccountsForValues(w: World, moved: nat -> Body)
    requires Invariant(w)
    ensures var em := EmitOutputs(w.miners, w.numbers);
      var r := Update(w, moved);
      && em.numbers[..|w.numbers|] == w.numbers
      && multiset(Cores.Values(em.numbers))
         == multiset(Cores.Values(r.numbers)) + multiset(r.core.storedNumbers[|w.core.storedNumbers|..])
      && multiset(Cores.Values(w.numbers)) + multiset(Heads(w.miners))
         == multiset(Cores.Values(r.numbers)) + multiset(r.core.storedNumbers[|w.core.storedNumbers|..])
  {
    UpdateUnfoldsIdle(w, moved);
    var em := EmitOutputs(w.miners, w.numbers);
    AbsorbAccountsForValues(em.numbers, moved, Cores.Update(w.core));
    EmitOutputsCarriesHeads(w.miners, w.numbers);
    assert multiset(Cores.Values(em.numbers)) == multiset(Cores.Values(w.numbers)) + multiset(Heads(w.miners));
  }

  /** A tick preserves the world invariant. */
  lemma UpdateKeepsInvariant(w: World, moved: nat -> Body)
    requires Invariant(w)
    ensures Invariant(Update(w, moved))
  {
    UpdateUnfoldsIdle(w, moved);
    var em := EmitOutputs(w.miners, w.numbers);
    var ab := Absorb(em.numbers, moved, Cores.Update(w.core));
    InvariantOnlyNeedsLayout(w, w.(miners := em.miners, numbers := ab.numbers, core := ab.core));
  }

  /**
   * The invariant depends only on the grid, the deposits, where the miners are
   * and the Core's consistency: draining buffers and absorbing tokens keep it.
   */
  lemma InvariantOnlyNeedsLayout(w: World, r: World)
    requires Invariant(w) && Cores.Consistent(r.core)
    requires r.grid == w.grid && r.deposits == w.deposits && |r.miners| == |w.miners|
    requires forall i :: 0 <= i < |w.miners| ==>
      && r.miners[i].(outputBuffer := w.miners[i].outputBuffer) == w.miners[i]
      && |r.miners[i].outputBuffer| <= |w.miners[i].outputBuffer|
    ensures Invariant(r)
  {
    forall i | 0 <= i < |r.miners|
      ensures MinerPlaced(r, i)
    {
      assert MinerPlaced(w, i);
    }
  }

  /**
   * In a world that keeps the invariant, a tick conserves tokens: floating
   * ones, absorbed ones and buffered ones add up to the same total, at most
   * one token per miner leaves its buffer, deposits are untouched, and the
   * invariant still holds.
   */
  lemma UpdateConservesTokens(w: World, moved: nat -> Body)
    requires Invariant(w)
    ensures var r := Update(w, moved);
      && |r.numbers| + Cores.GetStoredCount(r.core) + BufferTotal(r.miners)
         == |w.numbers| + Cores.GetStoredCount(w.core) + BufferTotal(w.miners)
      && BufferTotal(r.miners) <= BufferTotal(w.miners) <= BufferTotal(r.miners) + |w.miners|
      && r.deposits == w.deposits
      && Invariant(r)
  {
    UpdateUnfoldsIdle(w, moved);
    UpdateKeepsInvariant(w, moved);
  }
}

=== FILE: generation.dfy ===
/**
 * Deterministic, position-keyed deposit generation (the generation half of
 * internal/game/world.go).
 *
 * `rand.New(rand.NewSource(seed))` is modelled by `Rng`: `float64(s)` is the
 * first Float64 drawn from a generator seeded with `s`, and `intn(s, k, n)` is
 * the k-th Intn(n) drawn from a fresh generator seeded with `s`. Both are
 * arbitrary functions of their arguments, so presence and value are pure
 * functions of the position and nothing else about math/rand is assumed.
 */
module Generation {
  import opened Wrappers
  import opened Entity
  import opened Numbers
  import opened Deposits
  import opened Cores

  datatype Rng = Rng(float64: int -> real, intn: (int, nat, int) -> int)

  /** Intn(n) draws lie in [0, n). */
  ghost predicate ValidRng(rng: Rng)
  {
    forall seed, k: nat, n :: 0 < n ==> 0 <= rng.intn(seed, k, n) < n
  }

  /** The seed derived from a grid position. */
  function Seed(x: int, y: int): int
  {
    x * 1000000 + y * 1000 + 12345
  }

  /** Probability of a deposit on an eligible cell. */
  const DepositChance: real := 0.15

  /** The square x, y in [-1, 2] around the Core where nothing is generated. */
  predicate InExclusionZone(x: int, y: int)
  {
    -1 <= x <= 2 && -1 <= y <= 2
  }

  predicate ShouldGenerateDeposit(rng: Rng, x: int, y: int)
  {
    !InExclusionZone(x, y) && rng.float64(Seed(x, y)) < DepositChance
  }

  /** Integer square root, used for `int(math.Sqrt(d) * 50)` as `ISqrt(2500 * d)`. */
  function ISqrt(n: nat): (r: nat)
    ensures r * r <= n < (r + 1) * (r + 1)
    decreases n
  {
    if n < 4 then
      if n == 0 then 0 else 1
    else
      var t := ISqrt(n / 4);
      ISqrtStep(n, t);
      if (2 * t + 1) * (2 * t + 1) <= n then 2 * t + 1 else 2 * t
  }

  /** Doubling the root of n / 4 brackets the root of n within one. */
  lemma ISqrtStep(n: nat, t: nat)
    requires 4 <= n && t * t <= n / 4 < (t + 1) * (t + 1)
    ensures (2 * t) * (2 * t) <= n < (2 * t + 2) * (2 * t + 2)
  {
    var q := n / 4;
    assert 4 * q <= n < 4 * q + 4;
    var tt := t * t;
    var uu := (t + 1) * (t + 1);
    assert (2 * t) * (2 * t) == 4 * tt;
    assert (2 * t + 2) * (2 * t + 2) == 4 * uu;
  }

  /** The integer square root is at least `m` once its argument reaches m squared. */
  lemma ISqrtAtLeast(n: nat, m: nat)
    requires m * m <= n
    ensures m <= ISqrt(n)
  {
    var r := ISqrt(n);
    if r < m {
      var s := r + 1;
      MulMono(s, m, s);
      MulMono(s, m, m);
    }
  }

  /** Upper end of the prime search in the outermost band: int(distance * 50). */
  function OuterBound(x: int, y: int): int
  {
    ISqrt(2500 * (x * x + y * y))
  }

  /** Number of random probes before the linear fallback. */
  const MaxPrimeAttempts: nat := 100

  /** The k-th random probe into [min, max]. */
  function Probe(rng: Rng, seed: int, min: int, max: int, k: nat): int
  {
    rng.intn(seed, k, max - min + 1) + min
  }

  /** Random probes `attempt`, `attempt + 1`, ... below MaxPrimeAttempts; the first prime one wins. */
  function RandomSearch(rng: Rng, seed: int, min: int, max: int, attempt: nat): (r: Option<int>)
    requires ValidRng(rng) && min <= max
    ensures r.Some? ==> min <= r.value <= max && IsPrimeNumber(r.value)
    ensures r.None? <==>
      forall k: nat :: attempt <= k < MaxPrimeAttempts ==> !IsPrimeNumber(Probe(rng, seed, min, max, k))
    ensures r.Some? ==>
      exists k: nat :: attempt <= k < MaxPrimeAttempts && r.value == Probe(rng, seed, min, max, k)
        && forall j: nat :: attempt <= j < k ==> !IsPrimeNumber(Probe(rng, seed, min, max, j))
    decreases MaxPrimeAttempts - attempt
  {
    if attempt >= MaxPrimeAttempts then None
    else
      var candidate := Probe(rng, seed, min, max, attempt);
      if IsPrime(candidate) then Some(candidate)
      else RandomSearch(rng, seed, min, max, attempt + 1)
  }

  /** The fallback loop: the first prime in [candidate, max], if any. */
  function LinearScan(candidate: int, max: int): (r: Option<int>)
    ensures r.Some? ==> candidate <= r.value <= max && IsPrimeNumber(r.value)
    ensures r.Some? ==> forall q :: candidate <= q < r.value ==> !IsPrimeNumber(q)
    ensures r.None? ==> forall q :: candidate <= q <= max ==> !IsPrimeNumber(q)
    decreases max - candidate
  {
    if candidate > max then None
    else if IsPrime(candidate) then Some(candidate)
    else LinearScan(candidate + 1, max)
  }

  /**
   * A prime from [min, max]: random probes first, then a linear scan; 2 when
   * the range is malformed, starts below 2, or holds no prime.
   */
  function GeneratePrimeInRange(rng: Rng, seed: int, min: int, max: int): (p: int)
    requires ValidRng(rng)
    ensures IsPrimeNumber(p)
    ensures min > max || min < 2 ==> p == 2
    ensures 2 <= min && (exists q :: min <= q <= max && IsPrimeNumber(q)) ==> min <= p <= max
    ensures (forall q :: min <= q <= max ==> !IsPrimeNumber(q)) ==> p == 2
    ensures 2 <= min <= max && (exists k: nat :: k < MaxPrimeAttempts && IsPrimeNumber(Probe(rng, seed, min, max, k))) ==>
      exists k: nat :: k < MaxPrimeAttempts && p == Probe(rng, seed, min, max, k)
        && forall j: nat :: j < k ==> !IsPrimeNumber(Probe(rng, seed, min, max, j))
    ensures (&& 2 <= min <= max
             && (forall k: nat :: k < MaxPrimeAttempts ==> !IsPrimeNumber(Probe(rng, seed, min, max, k)))
             && (exists q :: min <= q <= max && IsPrimeNumber(q)))
      ==> min <= p && forall q :: min <= q < p ==> !IsPrimeNumber(q)
  {
    assert IsPrime(2);
    if min > max || min < 2 then 2
    else
      match RandomSearch(rng, seed, min, max, 0)
      case Some(p) => p
      case None =>
        match LinearScan(min, max)
        case Some(p) => p
        case None => 2
  }

  /** The value of a deposit generated at (x, y), chosen by squared distance from the origin. */
  function GenerateNumberForPosition(rng: Rng, x: int, y: int): (v: int)
    requires ValidRng(rng)
    ensures x * x + y * y < 9 ==> 1 <= v <= 5
    ensures 9 <= x * x + y * y < 64 ==> 1 <= v <= 20
    ensures 64 <= x * x + y * y < 225 ==> 5 <= v <= 100
    ensures 225 <= x * x + y * y < 625 ==> 20 <= v <= 500
    ensures 625 <= x * x + y * y ==> IsPrimeNumber(v) && 50 <= v <= OuterBound(x, y)
  {
    var d2 := x * x + y * y;
    var seed := Seed(x, y);
    if d2 < 9 then rng.intn(seed, 0, 5) + 1
    else if d2 < 64 then rng.intn(seed, 0, 20) + 1
    else if d2 < 225 then rng.intn(seed, 0, 96) + 5
    else if d2 < 625 then rng.intn(seed, 0, 481) + 20
    else
      assert 1250 <= OuterBound(x, y) by {
        ISqrtAtLeast(2500 * d2, 1250);
      }
      assert IsPrimeNumber(53) by {
        assert IsPrime(53);
      }
      GeneratePrimeInRange(rng, seed, 50, OuterBound(x, y))
  }

  /** The infinite flag: a draw below 5%, or below 15% for a prime value. */
  function ShouldBeInfinite(value: int, draw: real): (infinite: bool)
    ensures infinite <==> draw < (if IsPrimeNumber(value) then 0.15 else 0.05)
  {
    var baseChance := if IsPrime(value) then 0.15 else 0.05;
    draw < baseChance
  }

  /** The deposit generation creates at `p`, given the infinite-flag draw for `p`. */
  function NewCellDeposit(rng: Rng, draw: GridPosition -> real, p: GridPosition): NumberDeposit
    requires ValidRng(rng)
  {
    var value := GenerateNumberForPosition(rng, p.x, p.y);
    NewNumberDeposit(p.x, p.y, value, ShouldBeInfinite(value, draw(p)))
  }

  /** Cells where generation places a deposit if none is there yet. */
  predicate Eligible(rng: Rng, p: GridPosition)
  {
    !OccupiesPosition(p) && ShouldGenerateDeposit(rng, p.x, p.y)
  }

  datatype ChunkPosition = ChunkPosition(x: int, y: int)

  /** Side of a chunk in grid cells. */
  const ChunkSize: int := 16

  /** The chunk containing a cell. */
  function ChunkOf(p: GridPosition): ChunkPosition
  {
    ChunkPosition(p.x / ChunkSize, p.y / ChunkSize)
  }

  /** A set of cells: a half-open rectangle, a set of chunks, or a union. */
  datatype Region =
    | Rect(x0: int, y0: int, x1: int, y1: int)
    | Chunks(chunks: set<ChunkPosition>)
    | Union(left: Region, right: Region)

  predicate Contains(r: Region, p: GridPosition)
  {
    match r
    case Rect(x0, y0, x1, y1) => x0 <= p.x < x1 && y0 <= p.y < y1
    case Chunks(cs) => ChunkOf(p) in cs
    case Union(a, b) => Contains(a, p) || Contains(b, p)
  }

  /** The square [16 cx, 16 cx + 16) x [16 cy, 16 cy + 16) of a chunk. */
  function ChunkRect(c: ChunkPosition): Region
  {
    Rect(c.x * ChunkSize, c.y * ChunkSize, c.x * ChunkSize + ChunkSize, c.y * ChunkSize + ChunkSize)
  }

  lemma ChunkRectIsChunk(c: ChunkPosition, p: GridPosition)
    ensures Contains(ChunkRect(c), p) <==> ChunkOf(p) == c
  {
    if Contains(ChunkRect(c), p) {
      DivModUnique(p.x, ChunkSize, c.x, p.x - c.x * ChunkSize);
      DivModUnique(p.y, ChunkSize, c.y, p.y - c.y * ChunkSize);
    }
    if ChunkOf(p) == c {
      assert p.x == ChunkSize * (p.x / ChunkSize) + p.x % ChunkSize;
      assert p.y == ChunkSize * (p.y / ChunkSize) + p.y % ChunkSize;
    }
  }

  /**
   * `after` is `before` with a deposit generated on every eligible cell of the
   * region that had none, and nothing else: existing deposits are kept as they
   * are and no cell outside the region or ineligible is touched.
   */
  ghost predicate Extends(before: map<GridPosition, NumberDeposit>, after: map<GridPosition, NumberDeposit>,
                          rng: Rng, draw: GridPosition -> real, region: Region)
    requires ValidRng(rng)
  {
    && (forall p :: p in before ==> p in after && after[p] == before[p])
    && (forall p :: p in after && p !in before ==>
          Contains(region, p) && Eligible(rng, p) && after[p] == NewCellDeposit(rng, draw, p))
    && (forall p :: Contains(region, p) && Eligible(rng, p) ==> p in after)
  }

  /** Extending over two regions one after the other extends over their union. */
  lemma ExtendsTrans(a: map<GridPosition, NumberDeposit>, b: map<GridPosition, NumberDeposit>,
                     c: map<GridPosition, NumberDeposit>, rng: Rng, draw: GridPosition -> real,
                     r1: Region, r2: Region, r: Region)
    requires ValidRng(rng)
    requires Extends(a, b, rng, draw, r1) && Extends(b, c, rng, draw, r2)
    requires forall p :: Contains(r, p) <==> Contains(r1, p) || Contains(r2, p)
    ensures Extends(a, c, rng, draw, r)
  {
  }

  /** Extension depends only on the cells a region contains, not on how it is described. */
  lemma ExtendsSameCells(a: map<GridPosition, NumberDeposit>, b: map<GridPosition, NumberDeposit>,
                         rng: Rng, draw: GridPosition -> real, r1: Region, r2: Region)
    requires ValidRng(rng) && Extends(a, b, rng, draw, r1)
    requires forall p :: Contains(r1, p) <==> Contains(r2, p)
    ensures Extends(a, b, rng, draw, r2)
  {
  }

  /** At most one map extends a given one over a region: generation is deterministic. */
  lemma ExtendsUnique(a: map<GridPosition, NumberDeposit>, b1: map<GridPosition, NumberDeposit>,
                      b2: map<GridPosition, NumberDeposit>, rng: Rng, draw: GridPosition -> real,
                      r1: Region, r2: Region)
    requires ValidRng(rng)
    requires Extends(a, b1, rng, draw, r1) && Extends(a, b2, rng, draw, r2)
    requires forall p :: Contains(r1, p) <==> Contains(r2, p)
    ensures b1 == b2
  {
    assert forall p :: p in b1 <==> p in b2;
    assert b1.Keys == b2.Keys;
  }

  /** One cell of the generation loop. */
  function GenerateCell(deposits: map<GridPosition, NumberDeposit>, rng: Rng,
                        draw: GridPosition -> real, p: GridPosition): (r: map<GridPosition, NumberDeposit>)
    requires ValidRng(rng)
    ensures Extends(deposits, r, rng, draw, Rect(p.x, p.y, p.x + 1, p.y + 1))
  {
    if p in deposits then deposits
    else if OccupiesPosition(p) then deposits
    else if ShouldGenerateDeposit(rng, p.x, p.y) then deposits[p := NewCellDeposit(rng, draw, p)]
    else deposits
  }

  /** The inner loop over y for one column x. */
  function GenerateColumn(deposits: map<GridPosition, NumberDeposit>, rng: Rng, draw: GridPosition -> real,
                          x: int, y: int, yEnd: int): (r: map<GridPosition, NumberDeposit>)
    requires ValidRng(rng)
    ensures Extends(deposits, r, rng, draw, Rect(x, y, x + 1, yEnd))
    decreases yEnd - y
  {
    if y >= yEnd then deposits
    else
      var cell := GenerateCell(deposits, rng, draw, GridPosition(x, y));
      var r := GenerateColumn(cell, rng, draw, x, y + 1, yEnd);
      ExtendsTrans(deposits, cell, r, rng, draw, Rect(x, y, x + 1, y + 1), Rect(x, y + 1, x + 1, yEnd),
                   Rect(x, y, x + 1, yEnd));
      r
  }

  /** The outer loop over x. */
  function GenerateColumns(deposits: map<GridPosition, NumberDeposit>, rng: Rng, draw: GridPosition -> real,
                           x: int, xEnd: int, yStart: int, yEnd: int): (r: map<GridPosition, NumberDeposit>)
    requires ValidRng(rng)
    ensures Extends(deposits, r, rng, draw, Rect(x, yStart, xEnd, yEnd))
    decreases xEnd - x
  {
    if x >= xEnd then deposits
    else
      var column := GenerateColumn(deposits, rng, draw, x, yStart, yEnd);
      var r := GenerateColumns(column, rng, draw, x + 1, xEnd, yStart, yEnd);
      ExtendsTrans(deposits, column, r, rng, draw, Rect(x, yStart, x + 1, yEnd), Rect(x + 1, yStart, xEnd, yEnd),
                   Rect(x, yStart, xEnd, yEnd));
      r
  }

  /**
   * Generates deposits on the rectangle [startX, startX + width) x
   * [startY, startY + height). `draw` supplies the global Float64 draw that
   * decides the infinite flag of each new deposit.
   */
  function GenerateArea(deposits: map<GridPosition, NumberDeposit>, rng: Rng, draw: GridPosition -> real,
                        startX: int, startY: int, width: int, height: int): (r: map<GridPosition, NumberDeposit>)
    requires ValidRng(rng)
    ensures Extends(deposits, r, rng, draw, Rect(startX, startY, startX + width, startY + height))
    ensures forall p :: p in r && p !in deposits ==> !OccupiesPosition(p) && !InExclusionZone(p.x, p.y)
  {
    GenerateColumns(deposits, rng, draw, startX, startX + width, startY, startY + height)
  }

  /** Every deposit is stored under its own position and is well formed. */
  predicate WellKeyed(deposits: map<GridPosition, NumberDeposit>)
  {
    forall p :: p in deposits ==> deposits[p].position == p && WellFormed(deposits[p])
  }

  lemma ExtendsKeepsWellKeyed(a: map<GridPosition, NumberDeposit>, b: map<GridPosition, NumberDeposit>,
                              rng: Rng, draw: GridPosition -> real, region: Region)
    requires ValidRng(rng) && Extends(a, b, rng, draw, region) && WellKeyed(a)
    ensures WellKeyed(b)
  {
  }

  /**
   * Generating the same rectangle a second time changes nothing, whatever the
   * infinite-flag draws of either call.
   */
  lemma GenerateAreaIdempotent(deposits: map<GridPosition, NumberDeposit>, rng: Rng,
                               draw1: GridPosition -> real, draw2: GridPosition -> real,
                               startX: int, startY: int, width: int, height: int)
    requires ValidRng(rng)
    ensures var once := GenerateArea(deposits, rng, draw1, startX, startY, width, height);
      GenerateArea(once, rng, draw2, startX, startY, width, height) == once
  {
    var region := Rect(startX, startY, startX + width, startY + height);
    var once := GenerateArea(deposits, rng, draw1, startX, startY, width, height);
    var twice := GenerateArea(once, rng, draw2, startX, startY, width, height);
    assert Extends(once, once, rng, draw2, region);
    ExtendsUnique(once, twice, once, rng, draw2, region, region);
  }

  /**
   * What generation fixes regardless of the infinite-flag draws: old deposits
   * are kept, and exactly the eligible empty cells of the region gain a deposit
   * at that position carrying that position's value.
   */
  ghost predicate Covers(before: map<GridPosition, NumberDeposit>, after: map<GridPosition, NumberDeposit>,
                         rng: Rng, region: Region)
    requires ValidRng(rng)
  {
    && (forall p :: p in before ==> p in after && after[p] == before[p])
    && (forall p :: p in after && p !in before ==>
          && Contains(region, p) && Eligible(rng, p)
          && after[p].position == p && after[p].numberValue == GenerateNumberForPosition(rng, p.x, p.y))
    && (forall p :: Contains(region, p) && Eligible(rng, p) ==> p in after)
  }

  lemma ExtendsCovers(a: map<GridPosition, NumberDeposit>, b: map<GridPosition, NumberDeposit>,
                      rng: Rng, draw: GridPosition -> real, region: Region)
    requires ValidRng(rng) && Extends(a, b, rng, draw, region)
    ensures Covers(a, b, rng, region)
  {
  }

  lemma CoversTrans(a: map<GridPosition, NumberDeposit>, b: map<GridPosition, NumberDeposit>,
                    c: map<GridPosition, NumberDeposit>, rng: Rng, r1: Region, r2: Region)
    requires ValidRng(rng) && Covers(a, b, rng, r1) && Covers(b, c, rng, r2)
    ensures Covers(a, c, rng, Union(r1, r2))
  {
    forall p | p in c && p !in a
      ensures Contains(Union(r1, r2), p) && Eligible(rng, p)
      ensures c[p].position == p && c[p].numberValue == GenerateNumberForPosition(rng, p.x, p.y)
    {
      if p in b {
        assert c[p] == b[p];
      }
    }
  }

  /**
   * Two rectangles generated in either order, each call with its own
   * infinite-flag draws, give deposits on the same cells, with the same
   * positions and values: those of generating over their union. Only the
   * infinite flag (and so the unit count) of a new deposit may differ.
   */
  lemma GenerateAreasCommute(deposits: map<GridPosition, NumberDeposit>, rng: Rng,
                             d1: GridPosition -> real, d2: GridPosition -> real,
                             d3: GridPosition -> real, d4: GridPosition -> real, r1: Region, r2: Region)
    requires ValidRng(rng) && r1.Rect? && r2.Rect?
    ensures var ab := GenerateArea(GenerateArea(deposits, rng, d1, r1.x0, r1.y0, r1.x1 - r1.x0, r1.y1 - r1.y0),
                                   rng, d2, r2.x0, r2.y0, r2.x1 - r2.x0, r2.y1 - r2.y0);
            var ba := GenerateArea(GenerateArea(deposits, rng, d3, r2.x0, r2.y0, r2.x1 - r2.x0, r2.y1 - r2.y0),
                                   rng, d4, r1.x0, r1.y0, r1.x1 - r1.x0, r1.y1 - r1.y0);
      && ab.Keys == ba.Keys
      && (forall p :: p in ab ==> ab[p].position == ba[p].position && ab[p].numberValue == ba[p].numberValue)
      && (forall p :: p in deposits ==> ab[p] == ba[p] == deposits[p])
      && Covers(deposits, ab, rng, Union(r1, r2))
  {
    var a := GenerateArea(deposits, rng, d1, r1.x0, r1.y0, r1.x1 - r1.x0, r1.y1 - r1.y0);
    var ab := GenerateArea(a, rng, d2, r2.x0, r2.y0, r2.x1 - r2.x0, r2.y1 - r2.y0);
    var b := GenerateArea(deposits, rng, d3, r2.x0, r2.y0, r2.x1 - r2.x0, r2.y1 - r2.y0);
    var ba := GenerateArea(b, rng, d4, r1.x0, r1.y0, r1.x1 - r1.x0, r1.y1 - r1.y0);
    ExtendsCovers(deposits, a, rng, d1, r1);
    ExtendsCovers(a, ab, rng, d2, r2);
    ExtendsCovers(deposits, b, rng, d3, r2);
    ExtendsCovers(b, ba, rng, d4, r1);
    CoversTrans(deposits, a, ab, rng, r1, r2);
    CoversTrans(deposits, b, ba, rng, r2, r1);
    assert forall p :: p in ab <==> p in ba;
  }
}

=== FILE: miners.dfy ===
/**
 * Miners: tick-driven extractors bound to one deposit, with a bounded FIFO
 * output buffer (internal/entities/miner.go).
 */
module Miners {
  import opened Wrappers
  import opened Entity
  import opened Numbers
  import opened Deposits

  datatype Direction = DirectionUp | DirectionRight | DirectionDown | DirectionLeft

  /** Ticks between two extractions (two seconds at 60 ticks per second). */
  const DefaultMiningInterval: int := 120
  /** Capacity of the output buffer. */
  const DefaultMaxBuffer: int := 5

  /**
   * A miner. The source holds a pointer to its deposit; here `deposit` is the
   * key of that deposit in the world's deposit map (None models a nil pointer).
   */
  datatype Miner = Miner(
    position: GridPosition,
    deposit: Option<GridPosition>,
    miningTimer: int,
    miningInterval: int,
    outputDir: Direction,
    outputBuffer: seq<Number>,
    maxBuffer: int)

  /** The timer stays below the interval and the buffer within its capacity. */
  predicate Valid(m: Miner)
  {
    0 <= m.miningTimer < m.miningInterval && |m.outputBuffer| <= m.maxBuffer
  }

  function NewMiner(gridX: int, gridY: int, deposit: Option<GridPosition>, outputDir: Direction): (m: Miner)
    ensures Valid(m) && m.outputBuffer == [] && m.miningTimer == 0
    ensures m.miningInterval == DefaultMiningInterval && m.maxBuffer == DefaultMaxBuffer
    ensures m.position == GridPosition(gridX, gridY) && m.deposit == deposit && m.outputDir == outputDir
  {
    Miner(GridPosition(gridX, gridY), deposit, 0, DefaultMiningInterval, outputDir, [], DefaultMaxBuffer)
  }

  /** World coordinates of the centre of a cell. */
  function CellCenter(p: GridPosition): (real, real)
  {
    var (wx, wy) := ToWorldPos(p);
    (wx + (TileSize / 2) as real, wy + (TileSize / 2) as real)
  }

  /** The miner together with the (possibly updated) deposit it is bound to. */
  datatype MinerTick = MinerTick(miner: Miner, deposit: Option<NumberDeposit>)

  /** One extraction attempt; a successful one appends a token to the buffer. */
  function MineOnce(m: Miner, d: NumberDeposit): (t: MinerTick)
    ensures t.deposit == Some(Mine(d).deposit)
    ensures t.miner.(outputBuffer := m.outputBuffer) == m
    ensures |t.miner.outputBuffer| == |m.outputBuffer| + (if CanBeMined(d) then 1 else 0)
    ensures t.miner.outputBuffer[..|m.outputBuffer|] == m.outputBuffer
    ensures CanBeMined(d) ==>
      var n := t.miner.outputBuffer[|m.outputBuffer|];
      && n.value == d.numberValue && WellTyped(n) && !n.body.isMoving
      && (n.body.x, n.body.y) == CellCenter(m.position)
  {
    var o := Mine(d);
    if o.ok then
      var (cx, cy) := CellCenter(m.position);
      MinerTick(m.(outputBuffer := m.outputBuffer + [NewNumber(cx, cy, o.value)]), Some(o.deposit))
    else
      MinerTick(m, Some(o.deposit))
  }

  /** Whether the next tick would make an extraction attempt. */
  predicate ExtractsOnNextTick(m: Miner, dep: Option<NumberDeposit>)
  {
    && dep.Some? && CanBeMined(dep.value)
    && |m.outputBuffer| < m.maxBuffer
    && m.miningTimer + 1 >= m.miningInterval
  }

  /** One tick of the miner against its deposit (`dep` is None for a nil deposit). */
  function Update(m: Miner, dep: Option<NumberDeposit>): (r: MinerTick)
    ensures dep.None? || !CanBeMined(dep.value) || |m.outputBuffer| >= m.maxBuffer ==> r == MinerTick(m, dep)
    ensures Valid(m) ==> Valid(r.miner)
    ensures r.miner.(miningTimer := m.miningTimer, outputBuffer := m.outputBuffer) == m
    ensures m.outputBuffer <= r.miner.outputBuffer && |r.miner.outputBuffer| <= |m.outputBuffer| + 1
    ensures |r.miner.outputBuffer| == |m.outputBuffer| + 1 <==> ExtractsOnNextTick(m, dep)
    ensures ExtractsOnNextTick(m, dep) ==>
      && r.miner.outputBuffer[|m.outputBuffer|].value == dep.value.numberValue
      && r.miner.outputBuffer[|m.outputBuffer|].body.isMoving == false
      && r.deposit == Some(Mine(dep.value).deposit)
      && r.miner.miningTimer == 0
    ensures !ExtractsOnNextTick(m, dep) ==> r.deposit == dep
  {
    if dep.None? || !CanBeMined(dep.value) then
      MinerTick(m, dep)
    else if |m.outputBuffer| >= m.maxBuffer then
      MinerTick(m, dep)
    else
      var timer := m.miningTimer + 1;
      if timer >= m.miningInterval then
        MineOnce(m.(miningTimer := 0), dep.value)
      else
        MinerTick(m.(miningTimer := timer), dep)
  }

  function Abs(n: int): nat
  {
    if n < 0 then -n else n
  }

  /** The cell next to the miner on its output side. */
  function GetOutputPosition(m: Miner): (r: GridPosition)
    ensures Abs(r.x - m.position.x) + Abs(r.y - m.position.y) == 1
    ensures m.outputDir == DirectionUp ==> r.y < m.position.y
    ensures m.outputDir == DirectionRight ==> r.x > m.position.x
    ensures m.outputDir == DirectionDown ==> r.y > m.position.y
    ensures m.outputDir == DirectionLeft ==> r.x < m.position.x
    ensures r != m.position
  {
    match m.outputDir
    case DirectionUp => GridPosition(m.position.x, m.position.y - 1)
    case DirectionRight => GridPosition(m.position.x + 1, m.position.y)
    case DirectionDown => GridPosition(m.position.x, m.position.y + 1)
    case DirectionLeft => GridPosition(m.position.x - 1, m.position.y)
  }

  /** Miners occupy a single cell. */
  function GetSize(m: Miner): (int, int)
  {
    (1, 1)
  }

  datatype Output = Output(miner: Miner, number: Option<Number>)

  /** Dequeues the oldest buffered token, if any. */
  function TryOutputNumber(m: Miner): (r: Output)
    ensures |m.outputBuffer| == 0 ==> r == Output(m, None)
    ensures |m.outputBuffer| > 0 ==>
      && r.number == Some(m.outputBuffer[0])
      && [m.outputBuffer[0]] + r.miner.outputBuffer == m.outputBuffer
    ensures r.miner.(outputBuffer := m.outputBuffer) == m
    ensures Valid(m) ==> Valid(r.miner)
  {
    if |m.outputBuffer| > 0 then
      Output(m.(outputBuffer := m.outputBuffer[1..]), Some(m.outputBuffer[0]))
    else
      Output(m, None)
  }

  function HasOutputReady(m: Miner): (ready: bool)
    ensures ready <==> TryOutputNumber(m).number.Some?
  {
    |m.outputBuffer| > 0
  }

  datatype Drained = Drained(miner: Miner, taken: seq<Number>)

  /** `k` consecutive calls to TryOutputNumber, collecting what they return. */
  function Drain(m: Miner, k: nat): Drained
    decreases k
  {
    if k == 0 then Drained(m, [])
    else
      var o := TryOutputNumber(m);
      var rest := Drain(o.miner, k - 1);
      Drained(rest.miner, (if o.number.Some? then [o.number.value] else []) + rest.taken)
  }

  /** The buffer is first-in first-out: draining returns the tokens in buffer order. */
  lemma {:induction false} DrainIsFifo(m: Miner, k: nat)
    ensures k <= |m.outputBuffer| ==>
      Drain(m, k).taken == m.outputBuffer[..k] && Drain(m, k).miner.outputBuffer == m.outputBuffer[k..]
    ensures |m.outputBuffer| <= k ==>
      Drain(m, k).taken == m.outputBuffer && Drain(m, k).miner.outputBuffer == []
    decreases k
  {
    if k > 0 {
      var o := TryOutputNumber(m);
      DrainIsFifo(o.miner, k - 1);
      if |m.outputBuffer| > 0 {
        assert o.miner.outputBuffer == m.outputBuffer[1..];
        if k <= |m.outputBuffer| {
          assert m.outputBuffer[..k] == [m.outputBuffer[0]] + m.outputBuffer[1..][..k - 1];
        }
      }
    }
  }

  /** `k` consecutive ticks. */
  function UpdateN(m: Miner, dep: Option<NumberDeposit>, k: nat): MinerTick
    decreases k
  {
    if k == 0 then MinerTick(m, dep)
    else
      var t := UpdateN(m, dep, k - 1);
      Update(t.miner, t.deposit)
  }

  /** Before the interval elapses, ticks only advance the timer. */
  lemma {:induction false} QuietTicks(m: Miner, d: NumberDeposit, k: nat)
    requires Valid(m) && CanBeMined(d) && |m.outputBuffer| < m.maxBuffer
    requires m.miningTimer + k < m.miningInterval
    ensures UpdateN(m, Some(d), k) == MinerTick(m.(miningTimer := m.miningTimer + k), Some(d))
    decreases k
  {
    if k > 0 {
      QuietTicks(m, d, k - 1);
    }
  }

  /**
   * A new miner bound to a mineable deposit emits exactly one token, carrying
   * the deposit's value, after 120 ticks, and the deposit is mined once.
   */
  lemma FirstOutputAfterInterval(gridX: int, gridY: int, key: Option<GridPosition>, dir: Direction, d: NumberDeposit)
    requires CanBeMined(d)
    ensures var t := UpdateN(NewMiner(gridX, gridY, key, dir), Some(d), DefaultMiningInterval);
      && |t.miner.outputBuffer| == 1
      && t.miner.outputBuffer[0].value == d.numberValue
      && t.miner.miningTimer == 0
      && t.deposit == Some(Mine(d).deposit)
  {
    var m := NewMiner(gridX, gridY, key, dir);
    QuietTicks(m, d, DefaultMiningInterval - 1);
  }
}

=== FILE: numbers.dfy ===
/**
 * Number classification and the value carried by a mobile resource token
 * (internal/entities/number.go).
 */
module Numbers {

  /** `d` divides `n` exactly. */
  predicate Divides(d: int, n: int)
  {
    d != 0 && n % d == 0
  }

  /** Primality in the mathematical sense: at least 2 and no divisor in [2, n). */
  ghost predicate IsPrimeNumber(n: int)
  {
    2 <= n && forall d :: 2 <= d < n ==> !Divides(d, n)
  }

  /** Multiplication by a non-negative factor is monotone. */
  lemma MulMono(a: int, b: int, c: int)
    requires 0 <= c && a <= b
    ensures a * c <= b * c
  {
  }

  /** Quotient and remainder are unique. */
  lemma DivModUnique(n: int, q: int, a: int, b: int)
    requires 0 < q && n == q * a + b && 0 <= b < q
    ensures n % q == b && n / q == a
  {
    var a', b' := n / q, n % q;
    assert n == q * a' + b';
    if a' < a {
      MulMono(a' + 1, a, q);
    } else if a < a' {
      MulMono(a + 1, a', q);
    }
  }

  /** The cofactor of a divisor is positive and divides too. */
  lemma CofactorDivides(d: int, n: int)
    requires 0 < d && 0 < n && n % d == 0
    ensures 0 < n / d && d * (n / d) == n && n % (n / d) == 0
  {
    var q := n / d;
    assert n == d * q;
    if q <= 0 {
      MulMono(q, 0, d);
    }
    DivModUnique(n, q, d, 0);
  }

  /** An odd number has no even divisor. */
  lemma OddHasNoEvenDivisor(n: int, e: int)
    requires n % 2 == 1 && 0 < e && e % 2 == 0
    ensures !Divides(e, n)
  {
    if n % e == 0 {
      var q := n / e;
      assert n == e * q;
      var h := e / 2;
      assert e == 2 * h;
      assert n == 2 * (h * q) + 0;
      DivModUnique(n, 2, h * q, 0);
    }
  }

  /**
   * If no number below `i` divides `n` and `i * i > n`, then no number in
   * [i, n) divides `n` either: its cofactor would be a smaller divisor.
   */
  lemma SmallCofactor(n: int, i: int)
    requires 2 <= i && 2 <= n && n < i * i
    requires forall d :: 2 <= d < i ==> !Divides(d, n)
    ensures forall d :: i <= d < n ==> !Divides(d, n)
  {
    forall d | i <= d < n
      ensures !Divides(d, n)
    {
      if Divides(d, n) {
        CofactorDivides(d, n);
        var q := n / d;
        if i <= q {
          MulMono(i, d, q);
          MulMono(i, q, i);
        } else if 2 <= q {
          assert Divides(q, n);
        }
      }
    }
  }

  /** The source's loop `for i := 3; i*i <= n; i += 2`, as recursion on `i`. */
  function TrialDivision(n: int, i: int): (r: bool)
    requires 3 <= i <= n && i % 2 == 1 && n % 2 == 1
    requires forall d :: 2 <= d < i ==> !Divides(d, n)
    ensures r <==> IsPrimeNumber(n)
    decreases n - i
  {
    if i * i > n then
      SmallCofactor(n, i);
      true
    else if n % i == 0 then
      assert i < n by { MulMono(3, i, i); }
      assert Divides(i, n);
      false
    else
      assert i + 2 <= n by { MulMono(3, i, i); }
      OddHasNoEvenDivisor(n, i + 1);
      TrialDivision(n, i + 2)
  }

  /** Trial-division primality test; `IsPrime` and `isPrime` of the source are this function. */
  function IsPrime(n: int): (r: bool)
    ensures r <==> IsPrimeNumber(n)
  {
    if n < 2 then false
    else if n == 2 then true
    else if n % 2 == 0 then
      assert Divides(2, n);
      false
    else TrialDivision(n, 3)
  }

  datatype NumberType = TypeBasic | TypePrime | TypeComposite

  /** Classification of a value: basic below 2, otherwise prime or composite. */
  function DetermineNumberType(value: int): (t: NumberType)
    ensures t == TypeBasic <==> value < 2
    ensures t == TypePrime <==> IsPrimeNumber(value)
    ensures t == TypeComposite <==> 2 <= value && !IsPrimeNumber(value)
  {
    if value < 2 then TypeBasic
    else if IsPrime(value) then TypePrime
    else TypeComposite
  }

  /** The kinematic part of a token: position and whether it is moving. */
  datatype Body = Body(x: real, y: real, isMoving: bool)

  /** A mobile resource token; its velocity, colour and size are not modelled. */
  datatype Number = Number(value: int, numberType: NumberType, body: Body)

  /** The classification stored in a token agrees with its value. */
  predicate WellTyped(n: Number)
  {
    n.numberType == DetermineNumberType(n.value)
  }

  /** A fresh token at rest at (x, y). */
  function NewNumber(x: real, y: real, value: int): (n: Number)
    ensures n.value == value && WellTyped(n)
    ensures n.body == Body(x, y, false)
    ensures n.numberType == TypePrime <==> IsPrimeNumber(value)
  {
    Number(value, DetermineNumberType(value), Body(x, y, false))
  }
}

=== FILE: wrappers.dfy ===
/** Optional values, used where the source returns a nil pointer. */
module Wrappers {

  datatype Option<+T> = None | Some(value: T)
}
